=== FILE: README.md ===
# A retrieval-augmented travel chat assistant — a Dafny model of its core

The assistant answers travel questions about one region (Pramanta, Tzoumerka). The server exposes a `/chat`
endpoint that runs a retrieve-augment-generate pipeline:

1. It validates the request's `category` and `userQuery`.
2. It loads the category's `;`-separated CSV rows through a five-minute cache keyed by file path.
3. It fills the category's prompt template with the serialised rows and the query.
4. It asks the text-generation model, retrying with exponential backoff while the model reports `503`.
5. It turns the rows that the model's answer mentions into at most one link per place name.

It answers 200 with the text and links, 400 for input that fails validation, and 500 for any
failure that reaches its `catch`. That includes a failure before validation: the handler logs
both fields first, and a JSON field whose conversion to a string throws (an object whose
`toString` is not a function) gets a 500 with no step run. A CSV file that cannot be read is the exception: its error never reaches
the `catch`, and the request gets no answer (see "## Findings").

In the browser, a limiter keeps the timestamps of the last minute's requests and a per-day
counter, and refuses a request over either limit. A small classifier maps WMO weather codes
to an emoji.

The model is split into one module per concern:

- `Common`: `Option` and `Result`.
- `Strings`: the JavaScript string operations the server uses — `startsWith`, `indexOf`/`includes`, `toLowerCase`, `trim`, and `length` counted in UTF-16 code units.
- `Validation`: `validateBasicInput`.
- `DataStore`: the CSV cache, as the class `CsvCache` over a map from path to entry.
- `Generation`: the retry loop, as a method proved against the function `RetryRun`.
- `Prompt`: `buildPrompt`, including the `$`-patterns of `String.prototype.replace`.
- `Sources`: `findSources`, as a loop proved against the function `ExpectedSources`.
- `Chat`: the handler. `Handle` is a function over one request; the method `HandleChat` runs the steps against the shared cache.
- `RequestManager`: the limiter. Its module state (the two limits and the stored state) is the class `Limiter`.
- `Weather`: `getWeatherEmoji`.

Everything outside the program is an input:

- the clock (`now`) and the day string (`today`);
- what each CSV stream yields;
- the text each template read returns;
- `JSON.stringify` of the rows;
- the model, as an oracle giving the outcome of the n-th call on a prompt;
- the browser's stored state.

## Model

| member | source | states |
|---|---|---|
| Validation.ValidateBasicInput | backend/server.js:22-52 | The guard chain accepts iff the category is given and matches `^[a-zA-Z0-9_\-]+$`, the query is given, its `trim()` is non-empty and its length is at most 1500; the empty strings that the `!` guards refuse need no case of their own |
| Validation.ValidateBasicInputIff | backend/server.js:22-52 | The input is accepted iff the category is a non-empty string over `[a-zA-Z0-9_-]`, the query is a string holding a non-whitespace character, and the query is at most 1500 UTF-16 code units long |
| Validation.RejectsPathCharacters | backend/server.js:29-33 | A category holding any character outside the identifier class is refused, whatever the query |
| Validation.RejectsTraversal | backend/server.js:29-33 | The category `../etc` is refused, whatever the query |
| Validation.QueryLengthBoundary | backend/server.js:45-48 | The length limit is inclusive: 1500 code units pass and 1501 fail |
| Validation.RejectsBlankQuery | backend/server.js:40-43 | A query made only of whitespace is refused |
| Strings.Trim | backend/server.js:41 | `trim()` returns a stretch of the string that neither starts nor ends with whitespace, and what it cuts off at either end is all whitespace |
| Strings.TrimEmptyIff | backend/server.js:41 | `trim()` yields the empty string exactly when every character is ECMAScript whitespace or a line terminator |
| Strings.Utf16Length | backend/server.js:46 | `length` lies between the number of characters and twice that number, equals it when no character is outside the Basic Multilingual Plane, and is 2 for a single character outside it and 1 for any other single character |
| Strings.Utf16LengthConcat | backend/server.js:46 | `length` of a concatenation is the sum of the lengths, so with the single-character case it counts one unit per character plus one more per character outside the Basic Multilingual Plane |
| Strings.IndexFrom | backend/server.js:184-185 | `indexOf` returns the first occurrence at or after the start, and `None` only when there is none |
| Strings.ContainsIff | backend/server.js:204 | `includes` holds iff the pattern occurs at some index |
| Strings.LowerPointwise | backend/server.js:204 | `toLowerCase` maps each character on its own and keeps the length |
| Strings.OccursLower | backend/server.js:204 | An occurrence of a name in the answer is still an occurrence, at the same index, after both are lower-cased |
| DataStore.Load | backend/server.js:133-169 | The intended load. The disk is read iff there is no entry younger than the lifetime. A fresh entry is returned and the cache is left unchanged. A full read returns the rows in stream order and stores `(now, rows)` under the path. A read that fails, in the file or in the parser, rejects with its error and stores nothing. Other paths keep their entries |
| DataStore.LoadAsWritten | backend/server.js:154-159 | As written: the call never settles exactly when the cache misses and the file stream itself fails; otherwise it settles as `Load` |
| DataStore.FileFailureNeverSettles | backend/server.js:154-159 | On a cache miss, a file that fails leaves the call as written unsettled, where `Load` rejects with the file error and leaves the cache alone |
| DataStore.CacheHitWithinTtl | backend/server.js:141-147 | A second load of a path less than 300000 ms after the read returns the same rows without reading the disk, whatever the disk now holds |
| DataStore.CacheExpires | backend/server.js:144-166 | Once 300000 ms or more have passed (the comparison is strict), the next load reads the disk again and returns the new rows or the new error |
| DataStore.OtherPathsUnaffected | backend/server.js:163-166 | Loading one path never changes whether another path is served from the cache |
| DataStore.CsvCache.constructor | backend/server.js:72 | The cache starts empty |
| DataStore.CsvCache.LoadAndCleanCsvData | backend/server.js:133-169 | The returned value, the new cache and whether the disk was read are exactly those of `Load` on the old cache. The `for await` loop collects the streamed rows in order |
| Generation.RetryRun | backend/server.js:92-123 | A run makes 1 to 3 calls. Every call but the last was a 503 failure. The waits are the first calls-1 entries of 1000 ms, 2000 ms. A run stops early only on a call that was not a 503 failure. The result is the last call's value or its rethrown error |
| Generation.SuccessAfterOverloads | backend/server.js:97-101 | After k < 3 failures with 503, the first success is returned as it is, after k calls' worth of waits |
| Generation.OverloadedThreeTimes | backend/server.js:104-111 | Three 503 failures: the third error is rethrown after waits of 1000 and 2000 ms, and there is no fourth call |
| Generation.OtherFailureIsFinal | backend/server.js:116-120 | A failure whose message lacks `503` is rethrown at once, with no wait and no further call |
| Generation.GenerateContentWithRetry | backend/server.js:92-123 | The `while` loop over `attempt` and `delay` returns, calls and sleeps exactly as `RetryRun` says |
| Prompt.Substitute | backend/server.js:184-185 | The `$`-pattern expansion of `replace` inserts a replacement without `$` exactly as written |
| Prompt.ReplaceFirst | backend/server.js:184-185 | `replace` with a string pattern returns the text unchanged when the pattern is absent; otherwise it keeps the text before the first occurrence and the text after it |
| Prompt.ReplaceAbsent | backend/server.js:184-185 | `replace` leaves a text without the pattern unchanged |
| Prompt.ReplaceFirstOccurrence | backend/server.js:184-185 | Only the first occurrence is replaced; the text before it and everything after it, later occurrences included, are kept |
| Prompt.ReplaceAfterPrefix | backend/server.js:184-185 | A placeholder that cannot overlap itself, absent from the prefix, is replaced right after that prefix |
| Prompt.BuildPrompt | backend/server.js:179-188 | A template with neither placeholder is sent to the model unchanged |
| Prompt.BuildPromptFillsPlaceholders | backend/server.js:179-188 | `pre {CSV} mid {QUERY} post` becomes `pre data mid query post` when the inserted texts hold no `$` and the placeholders do not occur earlier |
| Prompt.QueryDollarPatternExpanded | backend/server.js:185 | The query `$&` is expanded to the matched placeholder, so a query is not always embedded verbatim |
| Sources.LinkOf | backend/server.js:206-221 | A row offers exactly its website, titled `Name - Website`, when that starts with `http`; otherwise exactly its social-media page, titled `Name - Social Media`, when that does; nothing when neither does; a link's `uri` starts with `http` and its title is `Name - Website` or `Name - Social Media` |
| Sources.PicksContribute | backend/server.js:200-221 | Every row picked is linked, and no earlier linked row has its name |
| Sources.PicksComplete | backend/server.js:200-221 | Every linked row whose name no earlier linked row has is picked |
| Sources.PicksIncreasing | backend/server.js:202 | Picks are in row order |
| Sources.SourcesShape | backend/server.js:202-225 | There are at most as many sources as rows. Every `uri` starts with `http`. Every title is a mentioned row's name followed by ` - Website` or ` - Social Media` |
| Sources.SourcesInRowOrder | backend/server.js:202-223 | The k-th source is the link of the k-th picked row, and the picked rows are strictly increasing |
| Sources.AtMostOnePerName | backend/server.js:200-221 | No two sources come from rows with the same `Name` |
| Sources.LaterDuplicateIgnored | backend/server.js:207-215 | A row whose name an earlier mentioned, linked row already has contributes nothing |
| Sources.UnmentionedIgnored | backend/server.js:204 | A row with an empty name, or a name the answer does not contain case-insensitively, contributes nothing |
| Sources.FirstMentionContributes | backend/server.js:204-213 | A mentioned, linked row contributes when no earlier row with its name is mentioned and linked; when its website is valid, it contributes the website and not the social-media page |
| Sources.SingleRowSources | backend/server.js:197-226 | A single mentioned, linked row yields exactly its link |
| Sources.ScanRow | backend/server.js:204-221 | One turn of the loop: the name joins `foundNames` iff the row is linked; the link is pushed iff the row is linked and its name is new |
| Sources.FindSources | backend/server.js:197-226 | The loop with the `foundNames` set returns exactly `ExpectedSources`, which the lemmas above characterise |
| Chat.LogError | backend/server.js:238-240 | The log line fails with the category's conversion error, else the query's; it fails iff one of them throws, and never on a body that passes validation |
| Chat.ServerError | backend/server.js:286-294 | The `catch` block answers 500 with no sources and the text `I'm sorry, I had a problem processing that request. (Error: <message>)` |
| Chat.AfterGenerate | backend/server.js:268-294 | A rethrown error, or an answer whose `text()` throws, is the 500 of that message, ending after generation. A readable answer is a 200 with that text and the sources found in it among the loaded rows, after extraction |
| Chat.AfterLoad | backend/server.js:260-294 | A template read error is the 500 of that error, ending at the build step. Otherwise the run goes on as `AfterGenerate` says for the retry run on the prompt built from that template, the serialised rows and the query |
| Chat.Handle | backend/server.js:235-295 | A field whose conversion on the log line throws gets that error's 500, with no step run and the cache untouched. Otherwise the status is 400 iff validation fails, with the fixed text, no sources, no step run and the cache untouched. The status is always 200, 400 or 500, and a 500 always has the error shape |
| Chat.HandleStages | backend/server.js:238-284 | The steps run form a prefix of load, build, generate, extract. No step runs iff the body fails validation. A 500 with no step run happens iff the log line throws. The status is 200 iff every step ran |
| Chat.HandleCache | backend/server.js:255-256 | A valid request leaves the cache as the load step left it; an invalid one leaves it alone |
| Chat.HandleSources | backend/server.js:276-284 | A 200 comes from a valid request whose rows loaded, and carries `findSources` of its own text over those rows |
| Chat.HandleFullRun | backend/server.js:253-284 | When the rows load, the template reads and the model answers with text, the reply is 200 with that text and its sources, after all four steps |
| Chat.ClientPayloadRejected | backend/server.js:238-250 | A body `{ query, category }` (no `userQuery`) is answered 400 |
| Chat.TraversalRejected | backend/server.js:238-250 | A traversal attempt in the category runs no step and leaves the cache alone; when the log line does not throw, it is answered 400 |
| Chat.UnconvertibleCategoryFails | backend/server.js:238-240 | `{"category": {"toString": 0}, "userQuery": "hi"}` gets a 500 with `Cannot convert object to primitive value`, and no step runs |
| Chat.MissingCsvFails | backend/server.js:255-256 | Intended: a valid request whose CSV is neither cached nor readable is answered 500 with the read error, after the load step only |
| Chat.TemplateFails | backend/server.js:260-261 | A valid request whose rows load but whose template cannot be read is answered 500 with the read error, after the load and build steps |
| Chat.ModelFails | backend/server.js:268-270 | A valid request whose retry run ends in an error, or in an answer whose text cannot be read, is answered 500 with that message, after load, build and generate |
| Chat.HandleAsWritten | backend/server.js:235-295 | As written: no response exactly when the request is valid and its CSV load never settles; otherwise the response of `Handle` |
| Chat.MissingCsvNoResponse | backend/server.js:154-159 | `{category: "nosuch", userQuery: "hi"}` with no `nosuch.csv`: as written no response, where the intended handler answers 500 with the file error |
| Chat.TavernaSources | backend/server.js:197-226 | An answer containing `Taverna X is great` yields the taverna row's website as its only source |
| Chat.FoodScenario | backend/server.js:235-295 | End to end: a `food` query with the one taverna row and a model that answers at once gives 200, that answer and the taverna's website |
| Chat.HandleChat | backend/server.js:235-295 | The handler's steps against the shared cache give the response, the steps run and the new cache that `Handle` describes |
| RequestManager.LoadState | requestManager.js:11-26 | The stored state when there is one; otherwise an empty window and a daily record with no date and count 0 |
| RequestManager.TrimMinute | requestManager.js:34-37 | Trimming never lengthens the list, and every kept timestamp is within 60000 ms of `now` |
| RequestManager.TrimContents | requestManager.js:34-37 | Every occurrence of a timestamp within the window is kept, and every other one is dropped |
| RequestManager.TrimConcat | requestManager.js:34-37 | Trimming works part by part, so the kept timestamps keep their relative order |
| RequestManager.TrimKeepsInWindow | requestManager.js:34-37 | A list entirely within the window trims to itself |
| RequestManager.TrimIdempotent | requestManager.js:34-37 | Trimming twice at the same instant is trimming once |
| RequestManager.DailyCount | requestManager.js:65 | The daily count is the stored count when the stored date is today, otherwise 0 |
| RequestManager.CeilSeconds | requestManager.js:71 | `Math.ceil(ms / 1000)` is the least s with ms <= 1000 s |
| RequestManager.CanSendRequest | requestManager.js:54-81 | The result is `rpm` iff the trimmed count reaches the per-minute limit, whatever the daily count. It is `rpd` iff the per-minute limit is not reached and the daily count reaches its limit. `ok` reports both counts below their limits. `retryAfterSec` is NaN only for an empty window; otherwise it is at least 1, at most 60 without future timestamps, and exactly the whole seconds until the first stored timestamp leaves the window |
| RequestManager.Recorded | requestManager.js:84-102 | The new window is the trimmed old one with `now` appended. The date becomes today. The count is the old count plus one on the same day, otherwise 1 |
| RequestManager.RecordedCounts | requestManager.js:84-102 | Recording adds exactly one to the minute count and to the daily count that the next check at the same instant compares |
| RequestManager.RecordReachesMinuteLimit | requestManager.js:68-73 | Recording the request that brings the window to the per-minute limit makes the next check at that instant refuse with `rpm` |
| RequestManager.Limiter.constructor | requestManager.js:4-8 | The limits start at the defaults, 10 per minute and 250 per day |
| RequestManager.Limiter.InitRequestManager | requestManager.js:39-51 | Each limit becomes its option if that is given and non-zero, otherwise the default. The loaded state is saved back, and the limits are returned |
| RequestManager.Limiter.Check | requestManager.js:54-81 | The check only reads the limiter. An `ok` result has both counts below the limits. With nothing stored and positive limits, the first request is allowed with counts 0 and 0 |
| RequestManager.Limiter.RecordRequest | requestManager.js:84-102 | The stored state becomes `Recorded` of the loaded state, and the limits are unchanged |
| Weather.GetWeatherEmoji | weather.js:14-23 | The emoji is that of a band the code lies in |
| Weather.BandsPartition | weather.js:14-23 | Every integer code lies in exactly one band: ≥95, 80–94, 71–79, 61–70, 45–60, 3–44, 1–2, <1 |
| Weather.EmojiDistinct | weather.js:15-22 | No two kinds of sky share an emoji |
| Weather.GetWeatherEmojiIff | weather.js:14-23 | The emoji of a code is a sky's emoji iff the code lies in that sky's band |

## Findings

| source | as written | input that shows it | evidently intended | confidence | as-written member | corrected member |
|---|---|---|---|---|---|---|
| backend/server.js:154-159 | `fs.createReadStream(path).pipe(csv(...))`: `pipe` does not pass the file stream's `error` on to the parser stream that `for await` reads. That stream never ends, no `catch` runs, and the unhandled `error` event ends the process. The request gets no answer | `{category: "nosuch", userQuery: "hi"}` with no `data/nosuch.csv` | the file error reaches the `catch` and the client gets a 500 with the error message, as for a parser error | medium; not executed, read from the documented behaviour of Node's `pipe` | Chat.MissingCsvNoResponse | Chat.MissingCsvFails |

## Left out

- I/O and foreign code become inputs:
  - the Express/CORS setup and `app.listen`;
  - the generative-AI client;
  - `csv-parser` and `fs.createReadStream`;
  - `readFileSync`;
  - `JSON.stringify`.
- Logging output is left out. The one effect of logging that is modelled is that the log line before validation converts both fields to strings, and that conversion can throw.
- `express.json()` parsing is not modelled. A body field is a string, or a non-string JSON value that records whether converting it to a string throws, and with what message. Which JSON values throw (objects and arrays whose `toString` or `valueOf` is not a function) is left to that flag.
- DataStore.Load, DataStore.CsvCache.LoadAndCleanCsvData and Chat.Handle follow the intended behaviour for a CSV file that cannot be read: a rejection and a 500. The code as written gives no answer and ends the process. `DataStore.LoadAsWritten` and `Chat.HandleAsWritten` model that, as recorded under "## Findings".
- The startup check of the API key and `process.exit` are left out: they run before any request.
- `sleep` timers are not modelled. The retry loop records the waits it would sleep.
- Concurrency is not modelled. Requests interleaving at an `await` and racing on the cache are out of scope; each request runs alone.
- The cache hands out the very array it stores, so a caller could mutate cached rows. This aliasing is not modelled: rows are values.
- `__dirname` is not modelled. The file paths are `data/<category>.csv` and `data/<category>.txt`.
- A thrown error with no `message` is modelled with message `""`, so the 500 text ends `(Error: )` where JavaScript would print `undefined`.
- Strings.LowerChar: `toLowerCase` is modelled for ASCII, Latin-1 and Greek capitals only. It ignores final sigma and the mappings that change length.
- The documentation of the CSV loader promises that rows are cleaned (price tiers normalised). The code only collects the parsed rows, and the model follows the code.
- The documentation describes the cache per category; the code keys it by file path, and so does the model.
- The handler reads `userQuery` while the browser sends `query`. The model keeps the field as written, so such a request is refused (`Chat.ClientPayloadRejected`).
- The query is not always embedded verbatim, because `replace` expands `$`-patterns (`Prompt.QueryDollarPatternExpanded`).
- `localStorage` and JSON (de)serialisation of the limiter's state are not modelled. A stored value that is absent or does not parse is `None`. A stored JSON value of another shape, such as one without `minute` or `daily`, is not modelled.
- `Date.now()` and `toDateString()` are parameters. `trimMinute` reads its own `Date.now()`; the model uses the caller's `now` for it, so a clock tick between the two reads is not modelled.
- The limits are integers. A non-numeric or fractional option, which `||` would also accept, is not modelled.
- The browser script's DOM work, markdown rewriting and card rendering are not part of this model.
- `renderWeatherBadge` and `fetchAndRenderWeather` are not part of this model (floating-point rounding, network, DOM).
- Weather.GetWeatherEmoji: codes are integers, so `NaN` and fractional codes (which would fall through to the clear-sky emoji or between bands) are not modelled.

=== FILE: chat.dfy ===
/**
 * The `/chat` endpoint: validate, load the category's rows, build the prompt,
 * generate with retry, extract sources, and answer 200, 400 or 500.
 */
module Chat {
  import opened Common
  import opened Strings
  import opened Validation
  import opened DataStore
  import opened Prompt
  import opened Generation
  import opened Sources

  /**
   * A field of the parsed JSON body. Only a string can pass validation. For any other JSON
   * value, `conversion` is what converting it to a string does: `None` when that succeeds,
   * `Some(message)` when it throws (an object whose `toString` is not a function, or an
   * array holding one, throws a TypeError).
   */
  datatype Value = Str(s: string) | NonString(conversion: Option<string>)

  /** `req.body`; a missing field is absent. */
  type Body = map<string, Value>

  /** The TypeError's message when a value has no usable `toString` or `valueOf`. */
  const TO_PRIMITIVE_ERROR: string := "Cannot convert object to primitive value"

  /** The status code and the JSON `{ text, sources }` sent back. */
  datatype ChatResponse = ChatResponse(status: nat, text: string, sources: seq<Source>)

  /** The pipeline's steps after validation, in the order the handler runs them. */
  datatype Stage = LoadStage | BuildStage | GenerateStage | ExtractStage

  const PIPELINE: seq<Stage> := [LoadStage, BuildStage, GenerateStage, ExtractStage]
  const INVALID_INPUT_TEXT: string := "Invalid input. Please refine your request."
  const ERROR_PREFIX: string := "I'm sorry, I had a problem processing that request. (Error: "

  /**
   * Everything outside the server's own logic: the CSV stream of each file path, the
   * `readFileSync` result of each template path, `JSON.stringify` of the rows, and the model.
   */
  datatype Env = Env(
    disk: string -> DiskRead,
    templates: string -> Result<string>,
    stringify: seq<Row> -> string,
    model: Model)

  /** A field as `validateBasicInput` sees it: its string, or `None` when missing or not a string. */
  function BodyField(body: Body, key: string): Option<string> {
    if key in body && body[key].Str? then Some(body[key].s) else None
  }

  /** The error converting one field to a string throws, if any. */
  function ConversionError(body: Body, key: string): Option<string> {
    if key in body && body[key].NonString? then body[key].conversion else None
  }

  /**
   * The error of the log line that runs before validation: its template literal converts
   * the category first and then the query, and the first conversion that throws ends the
   * line. A body that passes validation always logs.
   */
  function LogError(body: Body): (e: Option<string>)
    ensures e.Some? ==> e == ConversionError(body, "category") || e == ConversionError(body, "userQuery")
    ensures e.None? <==> ConversionError(body, "category").None? && ConversionError(body, "userQuery").None?
    ensures ValidBody(body) ==> e.None?
  {
    if ConversionError(body, "category").Some? then ConversionError(body, "category")
    else ConversionError(body, "userQuery")
  }

  /** `path.join(__dirname, 'data', category + '.csv')`, relative to the server's directory. */
  function CsvPath(category: string): string {
    "data/" + category + ".csv"
  }

  /** `path.join(__dirname, 'data', category + '.txt')`. */
  function PromptPath(category: string): string {
    "data/" + category + ".txt"
  }

  /** What every answer of the `catch` block looks like: 500, no sources, the apology first. */
  predicate IsServerError(r: ChatResponse) {
    r.status == 500 && r.sources == [] && IsPrefix(ERROR_PREFIX, r.text)
  }

  /** The `catch` block's answer for an error with the given message. */
  function ServerError(message: string): (r: ChatResponse)
    ensures IsServerError(r)
    ensures r.text == ERROR_PREFIX + message + ")"
  {
    ChatResponse(500, ERROR_PREFIX + message + ")", [])
  }

  /** One request's answer, the steps it ran, and the cache afterwards. */
  datatype Handled = Handled(response: ChatResponse, stages: seq<Stage>, entries: map<string, Entry>)

  predicate ValidBody(body: Body) {
    ValidateBasicInput(BodyField(body, "category"), BodyField(body, "userQuery"))
  }

  /** The rows the load step yields for a valid body, and the cache after it. */
  function LoadFor(env: Env, entries: map<string, Entry>, body: Body, now: int): LoadOutcome
    requires ValidBody(body)
  {
    var path := CsvPath(BodyField(body, "category").value);
    Load(entries, path, now, env.disk(path))
  }

  /** The run after the model's answer: an unreadable answer or a rethrown error is a 500. */
  function AfterGenerate(result: Result<AiResponse>, rows: seq<Row>): (r: (ChatResponse, seq<Stage>))
    ensures r.1 == [GenerateStage] || r.1 == [GenerateStage, ExtractStage]
    ensures r.1 == [GenerateStage] ==> IsServerError(r.0)
    ensures r.1 != [GenerateStage] ==> r.0.status == 200 && r.0.sources == ExpectedSources(r.0.text, rows)
    ensures result.Err? ==> r == (ServerError(result.message), [GenerateStage])
    ensures result.Ok? && result.value.Unreadable? ==> r == (ServerError(result.value.message), [GenerateStage])
    ensures result.Ok? && result.value.Readable? ==>
      r == (ChatResponse(200, result.value.text, ExpectedSources(result.value.text, rows)), [GenerateStage, ExtractStage])
  {
    match result
    case Err(m) => (ServerError(m), [GenerateStage])
    case Ok(Unreadable(m)) => (ServerError(m), [GenerateStage])
    case Ok(Readable(aiText)) => (ChatResponse(200, aiText, ExpectedSources(aiText, rows)), [GenerateStage, ExtractStage])
  }

  /** The run after the rows are loaded: read the template, build the prompt, generate. */
  function AfterLoad(env: Env, category: string, userQuery: string, rows: seq<Row>): (r: (ChatResponse, seq<Stage>))
    ensures r.1 == [BuildStage] || r.1 == [BuildStage, GenerateStage] || r.1 == [BuildStage, GenerateStage, ExtractStage]
    ensures r.1 != [BuildStage, GenerateStage, ExtractStage] ==>
      IsServerError(r.0)
    ensures r.1 == [BuildStage, GenerateStage, ExtractStage] ==>
      r.0.status == 200 && r.0.sources == ExpectedSources(r.0.text, rows)
    ensures env.templates(PromptPath(category)).Err? ==>
      r == (ServerError(env.templates(PromptPath(category)).message), [BuildStage])
    ensures env.templates(PromptPath(category)).Ok? ==>
      var prompt := BuildPrompt(env.templates(PromptPath(category)).value, env.stringify(rows), userQuery);
      var after := AfterGenerate(RetryRun(prompt, env.model).result, rows);
      r == (after.0, [BuildStage] + after.1)
  {
    match env.templates(PromptPath(category))
    case Err(m) => (ServerError(m), [BuildStage])
    case Ok(template) =>
      var run := RetryRun(BuildPrompt(template, env.stringify(rows), userQuery), env.model);
      var (response, stages) := AfterGenerate(run.result, rows);
      (response, [BuildStage] + stages)
  }

  /**
   * The handler as a state machine over one request: a field whose conversion on the
   * log line throws gets a 500 before validation; every failure after validation
   * becomes a 500 with the error's message (a CSV file that cannot be read included:
   * see `HandleAsWritten` for what the code does instead); a full run answers 200 with the model's
   * text and the sources found in it.
   */
  function Handle(env: Env, entries: map<string, Entry>, body: Body, now: int): (h: Handled)
    ensures h.response.status == 400 <==> LogError(body).None? && !ValidBody(body)
    ensures LogError(body).Some? ==> h == Handled(ServerError(LogError(body).value), [], entries)
    ensures LogError(body).None? && !ValidBody(body) ==>
      h == Handled(ChatResponse(400, INVALID_INPUT_TEXT, []), [], entries)
    ensures h.response.status in {200, 400, 500}
    ensures h.response.status == 500 ==> IsServerError(h.response)
  {
    var category := BodyField(body, "category");
    var userQuery := BodyField(body, "userQuery");
    var logError := LogError(body);
    if logError.Some? then
      Handled(ServerError(logError.value), [], entries)
    else if !ValidateBasicInput(category, userQuery) then
      Handled(ChatResponse(400, INVALID_INPUT_TEXT, []), [], entries)
    else
      var loaded := LoadFor(env, entries, body, now);
      match loaded.result
      case Err(m) => Handled(ServerError(m), [LoadStage], loaded.entries)
      case Ok(rows) =>
        var after := AfterLoad(env, category.value, userQuery.value, rows);
        Handled(after.0, [LoadStage] + after.1, loaded.entries)
  }

  /** A body of two strings hands them to validation as they are, and its log line cannot throw. */
  lemma StringFields(category: string, userQuery: string)
    ensures var body := map["category" := Str(category), "userQuery" := Str(userQuery)];
      && BodyField(body, "category") == Some(category)
      && BodyField(body, "userQuery") == Some(userQuery)
      && LogError(body).None?
  {
    var body := map["category" := Str(category), "userQuery" := Str(userQuery)];
    assert ConversionError(body, "category").None? && ConversionError(body, "userQuery").None?;
  }

  /**
   * The stage lists of the three ways a run can end once the rows are loaded, stated
   * once so that the proofs about the handler need not unfold sequence concatenation.
   */
  lemma StageLists()
    ensures [LoadStage] + [BuildStage] == [LoadStage, BuildStage]
    ensures [LoadStage] + ([BuildStage] + [GenerateStage]) == [LoadStage, BuildStage, GenerateStage]
    ensures [LoadStage] + ([BuildStage] + [GenerateStage, ExtractStage]) == PIPELINE
  {
  }

  /** Once the rows are loaded, the rest of the run is `AfterLoad`'s. */
  lemma HandleLoaded(env: Env, entries: map<string, Entry>, body: Body, now: int)
    requires ValidBody(body) && LoadFor(env, entries, body, now).result.Ok?
    ensures var loaded := LoadFor(env, entries, body, now);
      var after := AfterLoad(env, BodyField(body, "category").value, BodyField(body, "userQuery").value, loaded.result.value);
      Handle(env, entries, body, now) == Handled(after.0, [LoadStage] + after.1, loaded.entries)
  {
  }

  /** Once the rows are loaded, the stages run are the load followed by a prefix of the rest. */
  lemma LoadedStages(env: Env, category: string, userQuery: string, rows: seq<Row>)
    ensures var after := AfterLoad(env, category, userQuery, rows);
      && [LoadStage] + after.1 <= PIPELINE
      && (after.0.status == 200 <==> [LoadStage] + after.1 == PIPELINE)
  {
  }

  /**
   * The stages run form a prefix of the pipeline: exactly a valid body runs the load, a
   * 500 with no stage run is exactly a log line that throws, and only a full run answers 200.
   */
  lemma HandleStages(env: Env, entries: map<string, Entry>, body: Body, now: int)
    ensures var h := Handle(env, entries, body, now);
      && h.stages <= PIPELINE
      && (h.stages == [] <==> !ValidBody(body))
      && (h.response.status == 500 && h.stages == [] <==> LogError(body).Some?)
      && (h.response.status == 200 <==> h.stages == PIPELINE)
  {
    var h := Handle(env, entries, body, now);
    if !ValidBody(body) {
      assert h.stages == [] && h.response.status in {400, 500};
    } else {
      var loaded := LoadFor(env, entries, body, now);
      if loaded.result.Err? {
        assert h.stages == [LoadStage] && h.response.status == 500;
      } else {
        var category := BodyField(body, "category");
        var userQuery := BodyField(body, "userQuery");
        LoadedStages(env, category.value, userQuery.value, loaded.result.value);
        var after := AfterLoad(env, category.value, userQuery.value, loaded.result.value);
        assert h.stages == [LoadStage] + after.1 && h.response == after.0;
      }
    }
  }

  /** A valid request leaves the cache as the load step left it; an invalid one leaves it alone. */
  lemma HandleCache(env: Env, entries: map<string, Entry>, body: Body, now: int)
    ensures ValidBody(body) ==> Handle(env, entries, body, now).entries == LoadFor(env, entries, body, now).entries
    ensures !ValidBody(body) ==> Handle(env, entries, body, now).entries == entries
  {
  }

  /** A 200 carries the sources the model's text names among the loaded rows. */
  lemma HandleSources(env: Env, entries: map<string, Entry>, body: Body, now: int)
    requires Handle(env, entries, body, now).response.status == 200
    ensures ValidBody(body) && LoadFor(env, entries, body, now).result.Ok?
    ensures var h := Handle(env, entries, body, now);
      h.response.sources == ExpectedSources(h.response.text, LoadFor(env, entries, body, now).result.value)
  {
  }

  /**
   * The happy path: a valid request whose rows load, whose template reads and whose
   * model answers with text gets that text and the sources it names, with status 200.
   */
  lemma HandleFullRun(env: Env, entries: map<string, Entry>, body: Body, now: int,
                      rows: seq<Row>, template: string, aiText: string)
    requires ValidBody(body)
    requires LoadFor(env, entries, body, now).result == Ok(rows)
    requires env.templates(PromptPath(BodyField(body, "category").value)) == Ok(template)
    requires RetryRun(BuildPrompt(template, env.stringify(rows), BodyField(body, "userQuery").value), env.model).result
             == Ok(Readable(aiText))
    ensures Handle(env, entries, body, now) == Handled(ChatResponse(200, aiText, ExpectedSources(aiText, rows)), PIPELINE, LoadFor(env, entries, body, now).entries)
  {
    StageLists();
    HandleLoaded(env, entries, body, now);
  }

  /** The browser sends `{ query, category }`, but the handler reads `userQuery`: such a request is refused. */
  lemma ClientPayloadRejected(env: Env, entries: map<string, Entry>, query: string, category: string, now: int)
    ensures Handle(env, entries, map["query" := Str(query), "category" := Str(category)], now)
         == Handled(ChatResponse(400, INVALID_INPUT_TEXT, []), [], entries)
  {
    var body := map["query" := Str(query), "category" := Str(category)];
    assert "userQuery" !in body;
  }

  /**
   * A traversal attempt in the category is refused before any file is touched: with a 400,
   * unless the query's conversion on the log line throws first.
   */
  lemma TraversalRejected(env: Env, entries: map<string, Entry>, body: Body, now: int)
    requires BodyField(body, "category") == Some("../etc")
    ensures Handle(env, entries, body, now).stages == [] && Handle(env, entries, body, now).entries == entries
    ensures LogError(body).None? ==>
      Handle(env, entries, body, now) == Handled(ChatResponse(400, INVALID_INPUT_TEXT, []), [], entries)
  {
    RejectsTraversal(BodyField(body, "userQuery"));
  }

  /** A valid request whose CSV file cannot be read (and is not cached) is answered 500 with the read error. */
  lemma MissingCsvFails(env: Env, entries: map<string, Entry>, body: Body, now: int)
    requires ValidBody(body)
    requires !IsFresh(entries, CsvPath(BodyField(body, "category").value), now)
    requires env.disk(CsvPath(BodyField(body, "category").value)).Failure().Some?
    ensures var m := env.disk(CsvPath(BodyField(body, "category").value)).Failure().value;
            Handle(env, entries, body, now) == Handled(ServerError(m), [LoadStage], entries)
  {
  }

  /** A valid request whose rows load but whose template cannot be read is answered 500 with the read error. */
  lemma TemplateFails(env: Env, entries: map<string, Entry>, body: Body, now: int)
    requires ValidBody(body) && LoadFor(env, entries, body, now).result.Ok?
    requires env.templates(PromptPath(BodyField(body, "category").value)).Err?
    ensures var m := env.templates(PromptPath(BodyField(body, "category").value)).message;
      Handle(env, entries, body, now) == Handled(ServerError(m), [LoadStage, BuildStage], LoadFor(env, entries, body, now).entries)
  {
    StageLists();
    HandleLoaded(env, entries, body, now);
  }

  /**
   * A valid request whose rows load and whose template reads, but whose retry run ends
   * in an error or in an answer whose text cannot be read, is answered 500 with that message.
   */
  lemma ModelFails(env: Env, entries: map<string, Entry>, body: Body, now: int, rows: seq<Row>, template: string, m: string)
    requires ValidBody(body)
    requires LoadFor(env, entries, body, now).result == Ok(rows)
    requires env.templates(PromptPath(BodyField(body, "category").value)) == Ok(template)
    requires var run := RetryRun(BuildPrompt(template, env.stringify(rows), BodyField(body, "userQuery").value), env.model);
      run.result == Err(m) || run.result == Ok(Unreadable(m))
    ensures Handle(env, entries, body, now)
         == Handled(ServerError(m), [LoadStage, BuildStage, GenerateStage], LoadFor(env, entries, body, now).entries)
  {
    StageLists();
    HandleLoaded(env, entries, body, now);
  }

  /**
   * The handler as written: when the CSV file itself cannot be read on a cache miss, the
   * load never settles and the process ends, so no response is sent (`None`). Every
   * other request is answered as `Handle` says.
   */
  function HandleAsWritten(env: Env, entries: map<string, Entry>, body: Body, now: int): (h: Option<Handled>)
    ensures h.None? <==> ValidBody(body) && LoadAsWritten(entries, CsvPath(BodyField(body, "category").value), now,
                                                          env.disk(CsvPath(BodyField(body, "category").value))).None?
    ensures h.Some? ==> h.value == Handle(env, entries, body, now)
  {
    if ValidBody(body) then
      var path := CsvPath(BodyField(body, "category").value);
      if LoadAsWritten(entries, path, now, env.disk(path)).None? then None
      else Some(Handle(env, entries, body, now))
    else Some(Handle(env, entries, body, now))
  }

  /**
   * A valid query for a category with no CSV file: as written it gets no response at
   * all, where the intended handler answers 500 with the file error.
   */
  lemma MissingCsvNoResponse(env: Env, entries: map<string, Entry>, now: int, m: string)
    requires CsvPath("nosuch") !in entries
    requires env.disk(CsvPath("nosuch")) == FileFailed(m)
    ensures HandleAsWritten(env, entries, map["category" := Str("nosuch"), "userQuery" := Str("hi")], now).None?
    ensures Handle(env, entries, map["category" := Str("nosuch"), "userQuery" := Str("hi")], now)
         == Handled(ServerError(m), [LoadStage], entries)
  {
    var body := map["category" := Str("nosuch"), "userQuery" := Str("hi")];
    NosuchQueryValid();
    StringFields("nosuch", "hi");
    var path := CsvPath("nosuch");
    assert !IsFresh(entries, path, now);
    assert LoadAsWritten(entries, path, now, env.disk(path)).None?;
    MissingCsvFails(env, entries, body, now);
  }

  lemma NosuchQueryValid()
    ensures ValidBody(map["category" := Str("nosuch"), "userQuery" := Str("hi")])
  {
    StringFields("nosuch", "hi");
    assert IsCategoryName("nosuch") by {
      forall i | 0 <= i < |"nosuch"| ensures IsCategoryChar("nosuch"[i]) {}
    }
    assert !IsWhitespace("hi"[0]);
    ValidateBasicInputIff(Some("nosuch"), Some("hi"));
  }

  /**
   * `{"category": {"toString": 0}, "userQuery": "hi"}`: the log line throws before
   * validation, so the answer is a 500 with the TypeError's message and no step runs.
   */
  lemma UnconvertibleCategoryFails(env: Env, entries: map<string, Entry>, now: int)
    ensures var body := map["category" := NonString(Some(TO_PRIMITIVE_ERROR)), "userQuery" := Str("hi")];
      Handle(env, entries, body, now) == Handled(ServerError(TO_PRIMITIVE_ERROR), [], entries)
  {
    var body := map["category" := NonString(Some(TO_PRIMITIVE_ERROR)), "userQuery" := Str("hi")];
    assert ConversionError(body, "category") == Some(TO_PRIMITIVE_ERROR);
    assert LogError(body) == Some(TO_PRIMITIVE_ERROR);
  }

  /** The sample row of the food category: a taverna with a website. */
  const TAVERNA: Row := map[
    "Name" := "Taverna X",
    "Website" := "https://tavernax.example",
    "\U{395}\U{3CD}\U{3C1}\U{3BF}\U{3C2}_\U{3A4}\U{3B9}\U{3BC}\U{3CE}\U{3BD}" := "EE (\U{39C}\U{3B5}\U{3C3}\U{3B1}\U{3AF}\U{3BF})"]

  /** The taverna's one link is its website. */
  lemma TavernaLink()
    ensures NameOf(TAVERNA) == "Taverna X"
    ensures LinkOf(TAVERNA) == Some(Source("Taverna X - Website", "https://tavernax.example"))
  {
    assert "Website" in TAVERNA && TAVERNA["Website"] == "https://tavernax.example";
    assert "Name" in TAVERNA && TAVERNA["Name"] == "Taverna X";
    assert IsLink("https://tavernax.example") by {
      assert "https://tavernax.example"[..4] == "http";
    }
    assert "Taverna X" + " - Website" == "Taverna X - Website";
  }

  /** The answer mentions `Taverna X is great`, so the taverna row is its one source. */
  lemma TavernaSources(aiText: string, at: nat)
    requires OccursAt(aiText, "Taverna X is great", at)
    ensures ExpectedSources(aiText, [TAVERNA]) == [Source("Taverna X - Website", "https://tavernax.example")]
  {
    assert OccursAt(aiText, "Taverna X", at) by {
      forall k | 0 <= k < 9 ensures aiText[at + k] == "Taverna X"[k] {
        assert aiText[at..at + 18][k] == "Taverna X is great"[k];
      }
      assert aiText[at..at + 9] == "Taverna X";
    }
    OccursLower(aiText, "Taverna X", at);
    ContainsIff(Lower(aiText), Lower("Taverna X"));
    TavernaLink();
    assert Mentioned(aiText, NameOf(TAVERNA));
    SingleRowSources(aiText, TAVERNA);
  }

  const FOOD_QUERY: Body := map["category" := Str("food"), "userQuery" := Str("Where can I eat?")]

  lemma FoodQueryValid()
    ensures ValidBody(FOOD_QUERY)
  {
    StringFields("food", "Where can I eat?");
    assert IsCategoryName("food") by {
      forall i | 0 <= i < |"food"| ensures IsCategoryChar("food"[i]) {}
    }
    assert !IsWhitespace("Where can I eat?"[0]);
    ValidateBasicInputIff(Some("food"), Some("Where can I eat?"));
  }

  /**
   * End to end: category `food` holding the one taverna row, the query `Where can I eat?`,
   * and a model whose first answer mentions `Taverna X is great`: the reply is that
   * answer with the taverna's website as its only source.
   */
  lemma FoodScenario(env: Env, entries: map<string, Entry>, now: int, template: string, aiText: string, at: nat)
    requires CsvPath("food") !in entries
    requires env.disk(CsvPath("food")) == Streamed([TAVERNA], None)
    requires env.templates(PromptPath("food")) == Ok(template)
    requires forall prompt :: env.model(prompt, 0) == Returned(Readable(aiText))
    requires OccursAt(aiText, "Taverna X is great", at)
    ensures Handle(env, entries, FOOD_QUERY, now).response
         == ChatResponse(200, aiText, [Source("Taverna X - Website", "https://tavernax.example")])
  {
    FoodQueryValid();
    var body := FOOD_QUERY;
    StringFields("food", "Where can I eat?");
    assert LoadFor(env, entries, body, now).result == Ok([TAVERNA]);
    var prompt := BuildPrompt(template, env.stringify([TAVERNA]), "Where can I eat?");
    SuccessAfterOverloads(prompt, env.model, 0, Readable(aiText));
    HandleFullRun(env, entries, body, now, [TAVERNA], template, aiText);
    TavernaSources(aiText, at);
  }

  /**
   * The `app.post('/chat', …)` handler over the shared cache at time `now`: the
   * steps run in order, each failure ends the run with a 500.
   */
  method HandleChat(cache: CsvCache, env: Env, body: Body, now: int)
    returns (response: ChatResponse, stages: seq<Stage>)
    modifies cache
    ensures Handled(response, stages, cache.entries) == Handle(env, old(cache.entries), body, now)
  {
    var userQuery := BodyField(body, "userQuery");
    var category := BodyField(body, "category");
    var logError := LogError(body);
    if logError.Some? {
      return ServerError(logError.value), [];
    }
    if !ValidateBasicInput(category, userQuery) {
      return ChatResponse(400, INVALID_INPUT_TEXT, []), [];
    }

    ghost var expected := Handle(env, old(cache.entries), body, now);
    var csvFilePath := CsvPath(category.value);
    var loaded, readDisk := cache.LoadAndCleanCsvData(csvFilePath, now, env.disk(csvFilePath));
    assert LoadFor(env, old(cache.entries), body, now) == LoadOutcome(loaded, cache.entries, readDisk);
    if loaded.Err? {
      assert expected == Handled(ServerError(loaded.message), [LoadStage], cache.entries);
      return ServerError(loaded.message), [LoadStage];
    }
    var csvData := loaded.value;

    ghost var after := AfterLoad(env, category.value, userQuery.value, csvData);
    StageLists();
    HandleLoaded(env, old(cache.entries), body, now);
    assert expected == Handled(after.0, [LoadStage] + after.1, cache.entries);
    var template := env.templates(PromptPath(category.value));
    if template.Err? {
      assert after == (ServerError(template.message), [BuildStage]);
      return ServerError(template.message), [LoadStage, BuildStage];
    }
    var promptText := BuildPrompt(template.value, env.stringify(csvData), userQuery.value);

    var result, calls, sleeps := GenerateContentWithRetry(promptText, env.model);
    ghost var generated := AfterGenerate(result, csvData);
    assert after == (generated.0, [BuildStage] + generated.1);
    if result.Err? {
      assert generated == (ServerError(result.message), [GenerateStage]);
      return ServerError(result.message), [LoadStage, BuildStage, GenerateStage];
    }
    match result.value
    case Unreadable(m) =>
      assert generated == (ServerError(m), [GenerateStage]);
      return ServerError(m), [LoadStage, BuildStage, GenerateStage];
    case Readable(aiText) =>
      var sources := FindSources(aiText, csvData);
      assert generated == (ChatResponse(200, aiText, sources), [GenerateStage, ExtractStage]);
      response, stages := ChatResponse(200, aiText, sources), PIPELINE;
  }
}

=== FILE: common.dfy ===
/** Failure-carrying values shared by the server and the browser modules. */
module Common {

  /** A value that may be absent: a missing request field, a `null` date. */
  datatype Option<+T> = None | Some(value: T)

  /** The outcome of a step that may throw; `Err` carries the error's message. */
  datatype Result<+T> = Ok(value: T) | Err(message: string)
}

=== FILE: data_store.dfy ===
/**
 * `loadAndCleanCsvData`: a per-file-path cache of parsed CSV rows with a
 * five-minute lifetime. The clock and the CSV stream are inputs.
 */
module DataStore {
  import opened Common

  /** One parsed CSV row: column header to cell text. */
  type Row = map<string, string>

  /** `CSV_CACHE_TTL`, in milliseconds. */
  const CSV_CACHE_TTL: int := 1000 * 60 * 5

  /** A `csvCache` slot: when the rows were read and the rows themselves. */
  datatype Entry = Entry(timestamp: int, data: seq<Row>)

  /**
   * What reading one file yields. `Streamed`: the `;`-separated CSV parser emitted
   * `rows` in stream order and then, if `parseError` is set, failed. `FileFailed`:
   * the file stream itself failed, as for a missing or unreadable file.
   */
  datatype DiskRead =
    | Streamed(rows: seq<Row>, parseError: Option<string>)
    | FileFailed(message: string)
  {
    /** The error that ends the read, if any. */
    function Failure(): Option<string> {
      if FileFailed? then Some(message) else parseError
    }
  }

  /** One call's effect: what it returns, the cache afterwards, and whether it read the disk. */
  datatype LoadOutcome = LoadOutcome(result: Result<seq<Row>>, entries: map<string, Entry>, readDisk: bool)

  /** The cache holds an entry for `path` that is younger than the lifetime (strictly). */
  predicate IsFresh(entries: map<string, Entry>, path: string, now: int) {
    path in entries && now - entries[path].timestamp < CSV_CACHE_TTL
  }

  /**
   * The effect of one `loadAndCleanCsvData(path)` call at time `now`, with every read
   * error reaching the caller as a rejection (see `LoadAsWritten` for the file stream's).
   */
  function Load(entries: map<string, Entry>, path: string, now: int, disk: DiskRead): (o: LoadOutcome)
    ensures o.readDisk <==> !IsFresh(entries, path, now)
    ensures IsFresh(entries, path, now) ==> o.result == Ok(entries[path].data) && o.entries == entries
    ensures !IsFresh(entries, path, now) && disk.Failure().None? ==>
      disk.Streamed? && o.result == Ok(disk.rows) && o.entries == entries[path := Entry(now, disk.rows)]
    ensures !IsFresh(entries, path, now) && disk.Failure().Some? ==>
      o.result == Err(disk.Failure().value) && o.entries == entries
    ensures o.entries.Keys <= entries.Keys + {path}
    ensures forall p :: p in entries && p != path ==> p in o.entries && o.entries[p] == entries[p]
  {
    if IsFresh(entries, path, now) then
      LoadOutcome(Ok(entries[path].data), entries, false)
    else if disk.Failure().Some? then
      LoadOutcome(Err(disk.Failure().value), entries, true)
    else
      LoadOutcome(Ok(disk.rows), entries[path := Entry(now, disk.rows)], true)
  }

  /**
   * The call as written: `createReadStream(path).pipe(csv(...))` does not pass the file
   * stream's `error` on to the parser, so when the file itself fails the `for await`
   * never ends and the call never settles (`None`); the unhandled `error` event ends
   * the process. Every other call settles as `Load` says.
   */
  function LoadAsWritten(entries: map<string, Entry>, path: string, now: int, disk: DiskRead): (o: Option<LoadOutcome>)
    ensures o.None? <==> !IsFresh(entries, path, now) && disk.FileFailed?
    ensures o.Some? ==> o.value == Load(entries, path, now, disk)
  {
    if !IsFresh(entries, path, now) && disk.FileFailed? then None
    else Some(Load(entries, path, now, disk))
  }

  /** A file that fails to open on a cache miss: as written nothing settles, where `Load` rejects with the error. */
  lemma FileFailureNeverSettles(entries: map<string, Entry>, path: string, now: int, message: string)
    requires !IsFresh(entries, path, now)
    ensures LoadAsWritten(entries, path, now, FileFailed(message)).None?
    ensures Load(entries, path, now, FileFailed(message)) == LoadOutcome(Err(message), entries, true)
  {
  }

  /**
   * Two loads of one path within the lifetime of the first read: the second
   * returns the same rows without touching the disk, whatever the disk holds by then.
   */
  lemma CacheHitWithinTtl(entries: map<string, Entry>, path: string, t1: int, d1: DiskRead, t2: int, d2: DiskRead)
    requires !IsFresh(entries, path, t1) && d1.Failure().None?
    requires t2 - t1 < CSV_CACHE_TTL
    ensures var first := Load(entries, path, t1, d1);
            var second := Load(first.entries, path, t2, d2);
            && d1.Streamed? && !second.readDisk && second.result == first.result == Ok(d1.rows)
            && second.entries == first.entries
  {
  }

  /** Once the lifetime has passed, the next load reads the disk again and returns the new rows. */
  lemma CacheExpires(entries: map<string, Entry>, path: string, t1: int, d1: DiskRead, t2: int, d2: DiskRead)
    requires !IsFresh(entries, path, t1) && d1.Failure().None?
    requires t2 - t1 >= CSV_CACHE_TTL
    ensures var first := Load(entries, path, t1, d1);
            var second := Load(first.entries, path, t2, d2);
            && second.readDisk
            && (d2.Failure().None? ==> d2.Streamed? && second.result == Ok(d2.rows))
            && (d2.Failure().Some? ==> second.result == Err(d2.Failure().value) && second.entries == first.entries)
  {
  }

  /** A load of one path never changes whether another path is served from the cache. */
  lemma OtherPathsUnaffected(entries: map<string, Entry>, path: string, now: int, disk: DiskRead, other: string, later: int)
    requires other != path
    ensures IsFresh(Load(entries, path, now, disk).entries, other, later) <==> IsFresh(entries, other, later)
  {
  }

  /** `csvCache`: the process-wide map from CSV file path to its cached rows. */
  class CsvCache {
    var entries: map<string, Entry>

    constructor ()
      ensures entries == map[]
    {
      entries := map[];
    }

    /**
     * `loadAndCleanCsvData(path)` at time `now`, where `disk` is what the file's
     * stream would yield if it were read. Reports whether it was read.
     */
    method LoadAndCleanCsvData(path: string, now: int, disk: DiskRead)
      returns (result: Result<seq<Row>>, readDisk: bool)
      modifies this
      ensures LoadOutcome(result, entries, readDisk) == Load(old(entries), path, now, disk)
    {
      if path in entries && now - entries[path].timestamp < CSV_CACHE_TTL {
        return Ok(entries[path].data), false;
      }
      readDisk := true;
      if disk.FileFailed? {
        // The file stream's error is reported to the caller, as `Load` intends.
        return Err(disk.message), readDisk;
      }
      var csvData: seq<Row> := [];
      for i := 0 to |disk.rows|
        invariant csvData == disk.rows[..i]
      {
        csvData := csvData + [disk.rows[i]];
      }
      assert csvData == disk.rows;
      if disk.parseError.Some? {
        return Err(disk.parseError.value), readDisk;
      }
      entries := entries[path := Entry(now, csvData)];
      result := Ok(csvData);
    }
  }
}

=== FILE: generation.dfy ===
/**
 * `generateContentWithRetry`: up to three calls to the text-generation model,
 * retrying with exponential backoff only when the failure's message mentions 503.
 * The model is an oracle and the waits are recorded instead of slept.
 */
module Generation {
  import opened Common
  import opened Strings

  /** `result.response`: its `text()` either returns the generated text or throws. */
  datatype AiResponse = Readable(text: string) | Unreadable(message: string)

  /**
   * One `model.generateContent(prompt)` call: it resolves with a response or
   * rejects with an error whose `message` is given (`""` when it has none).
   */
  datatype CallOutcome = Returned(response: AiResponse) | Threw(message: string)

  /** The model as seen by the server: the outcome of the `n`-th call (from 0) on a prompt. */
  type Model = (string, nat) -> CallOutcome

  const MAX_RETRIES: nat := 3
  const INITIAL_DELAY: nat := 1000
  /** The waits that the schedule can ever perform, in order. */
  const BACKOFF: seq<nat> := [1000, 2000]

  /** `error.message && error.message.includes('503')`: the model is overloaded. */
  predicate IsOverloadMessage(message: string) {
    message != "" && Contains(message, "503")
  }

  predicate IsOverloaded(o: CallOutcome) {
    o.Threw? && IsOverloadMessage(o.message)
  }

  /** What one call settles to when it is the last one: its value, or its error rethrown. */
  function Settle(o: CallOutcome): Result<AiResponse> {
    match o
    case Returned(r) => Ok(r)
    case Threw(m) => Err(m)
  }

  /** A whole retry run: what it returns or throws, how many calls it made, and the waits in between. */
  datatype Run = Run(result: Result<AiResponse>, calls: nat, sleeps: seq<nat>)

  /**
   * The run as a function of the first three outcomes: a call that succeeds or
   * fails for another reason ends the run; an overloaded third call ends it too.
   */
  function RetryRun(prompt: string, model: Model): (run: Run)
    ensures 1 <= run.calls <= MAX_RETRIES
    ensures run.sleeps == BACKOFF[..run.calls - 1]
    ensures forall n :: 0 <= n < run.calls - 1 ==> IsOverloaded(model(prompt, n))
    ensures run.calls < MAX_RETRIES ==> !IsOverloaded(model(prompt, run.calls - 1))
    ensures run.result == Settle(model(prompt, run.calls - 1))
  {
    if !IsOverloaded(model(prompt, 0)) then Run(Settle(model(prompt, 0)), 1, [])
    else if !IsOverloaded(model(prompt, 1)) then Run(Settle(model(prompt, 1)), 2, [1000])
    else Run(Settle(model(prompt, 2)), 3, [1000, 2000])
  }

  /** The first success is returned as it is, after one wait per overloaded call before it. */
  lemma SuccessAfterOverloads(prompt: string, model: Model, k: nat, r: AiResponse)
    requires k < MAX_RETRIES
    requires forall n :: 0 <= n < k ==> IsOverloaded(model(prompt, n))
    requires model(prompt, k) == Returned(r)
    ensures RetryRun(prompt, model) == Run(Ok(r), k + 1, BACKOFF[..k])
  {
  }

  /** Three overloaded calls: the third error is rethrown after waits of 1 s and 2 s, and no fourth call. */
  lemma OverloadedThreeTimes(prompt: string, model: Model)
    requires IsOverloaded(model(prompt, 0)) && IsOverloaded(model(prompt, 1)) && IsOverloaded(model(prompt, 2))
    ensures RetryRun(prompt, model) == Run(Err(model(prompt, 2).message), 3, [1000, 2000])
  {
  }

  /** A failure that is not an overload is rethrown at once, with no wait and no further call. */
  lemma OtherFailureIsFinal(prompt: string, model: Model, k: nat)
    requires k < MAX_RETRIES
    requires forall n :: 0 <= n < k ==> IsOverloaded(model(prompt, n))
    requires model(prompt, k).Threw? && !IsOverloaded(model(prompt, k))
    ensures RetryRun(prompt, model) == Run(Err(model(prompt, k).message), k + 1, BACKOFF[..k])
  {
  }

  /** `generateContentWithRetry(prompt)`: the `while` loop over `attempt` and `delay`. */
  method GenerateContentWithRetry(prompt: string, model: Model)
    returns (result: Result<AiResponse>, calls: nat, sleeps: seq<nat>)
    ensures Run(result, calls, sleeps) == RetryRun(prompt, model)
  {
    var attempt: nat := 0;
    var delay: nat := INITIAL_DELAY;
    calls, sleeps := 0, [];
    result := Err("");
    while attempt < MAX_RETRIES
      invariant attempt <= MAX_RETRIES && calls == attempt
      invariant attempt < MAX_RETRIES ==> sleeps == BACKOFF[..attempt] && delay == INITIAL_DELAY * Pow2(attempt)
      invariant forall n :: 0 <= n < attempt ==> IsOverloaded(model(prompt, n))
      invariant attempt == MAX_RETRIES ==> sleeps == BACKOFF && result == Err(model(prompt, 2).message)
    {
      var outcome := model(prompt, calls);
      calls := calls + 1;
      match outcome
      case Returned(response) =>
        return Ok(response), calls, sleeps;
      case Threw(message) =>
        if IsOverloadMessage(message) {
          attempt := attempt + 1;
          if attempt >= MAX_RETRIES {
            // Gave up: the error is rethrown and the loop guard now fails.
            result := Err(message);
          } else {
            sleeps := sleeps + [delay];
            delay := delay * 2;
          }
        } else {
          return Err(message), calls, sleeps;
        }
    }
  }

  function Pow2(n: nat): nat {
    if n == 0 then 1 else 2 * Pow2(n - 1)
  }
}

=== FILE: prompt.dfy ===
/**
 * `buildPrompt`: two first-occurrence `String.prototype.replace` calls on the
 * category's template. The template text and the `JSON.stringify` output are inputs.
 */
module Prompt {
  import opened Common
  import opened Strings

  const CSV_PLACEHOLDER: string := "{CSV_DATA_GOES_HERE}"
  const QUERY_PLACEHOLDER: string := "{USER_QUERY_GOES_HERE}"

  /**
   * The replacement-pattern expansion `replace` applies to a string replacement
   * when the pattern is a string (ECMA-262, the GetSubstitution operation, with no
   * capture groups): `$$` is `$`, `$&` the matched text, `` $` `` the text before the
   * match, `$'` the text after it; every other `$` is kept literally.
   */
  function Substitute(replacement: string, matched: string, before: string, after: string): (r: string)
    ensures '$' !in replacement ==> r == replacement
    decreases |replacement|
  {
    if replacement == [] then []
    else if replacement[0] == '$' && |replacement| >= 2 && replacement[1] in "$&`'" then
      var expansion :=
        if replacement[1] == '$' then "$"
        else if replacement[1] == '&' then matched
        else if replacement[1] == '`' then before
        else after;
      expansion + Substitute(replacement[2..], matched, before, after)
    else
      assert '$' !in replacement ==> '$' !in replacement[1..];
      [replacement[0]] + Substitute(replacement[1..], matched, before, after)
  }

  /** `s.replace(pattern, replacement)` for a string `pattern`: only the first occurrence is replaced. */
  function ReplaceFirst(s: string, pattern: string, replacement: string): (r: string)
    ensures IndexOf(s, pattern).None? ==> r == s
    ensures IndexOf(s, pattern).Some? ==>
      var i := IndexOf(s, pattern).value;
      var rest := s[i + |pattern|..];
      i + |rest| <= |r| && r[..i] == s[..i] && r[|r| - |rest|..] == rest
  {
    match IndexOf(s, pattern)
    case None => s
    case Some(i) =>
      s[..i] + Substitute(replacement, pattern, s[..i], s[i + |pattern|..]) + s[i + |pattern|..]
  }

  /** With no occurrence of the pattern, `replace` leaves the text as it is. */
  lemma ReplaceAbsent(s: string, pattern: string, replacement: string)
    requires !Contains(s, pattern)
    ensures ReplaceFirst(s, pattern, replacement) == s
  {
  }

  /**
   * When `pattern` first occurs in `s` at `i`, the text before it and everything after
   * it, later occurrences included, are kept; a `$`-free replacement takes its place.
   */
  lemma ReplaceFirstOccurrence(s: string, pattern: string, replacement: string, i: nat)
    requires OccursAt(s, pattern, i)
    requires forall j :: 0 <= j < i ==> !OccursAt(s, pattern, j)
    requires '$' !in replacement
    ensures ReplaceFirst(s, pattern, replacement) == s[..i] + replacement + s[i + |pattern|..]
  {
    assert IndexOf(s, pattern) == Some(i);
  }

  /**
   * A pattern whose first character occurs nowhere else in it cannot overlap itself,
   * so in `x + pattern + y` it first occurs right after `x` unless it occurs inside `x`.
   */
  lemma {:induction false} FirstAfterPrefix(x: string, pattern: string, y: string)
    requires |pattern| > 0 && pattern[0] !in pattern[1..]
    requires !Contains(x, pattern)
    ensures IndexOf(x + pattern + y, pattern) == Some(|x|)
  {
    var s := x + pattern + y;
    assert s[|x|..|x| + |pattern|] == pattern;
    assert OccursAt(s, pattern, |x|);
    forall j | 0 <= j < |x| ensures !OccursAt(s, pattern, j) {
      if j + |pattern| <= |x| {
        assert s[j..j + |pattern|] == x[j..j + |pattern|];
        assert !OccursAt(x, pattern, j);
      } else if j + |pattern| <= |s| {
        var k := |x| - j;
        assert s[j..j + |pattern|][k] == pattern[0];
        assert pattern[k] == pattern[1..][k - 1];
        assert pattern[k] != pattern[0];
      }
    }
    var r := IndexOf(s, pattern);
    assert r.Some? && r.value <= |x|;
  }

  /**
   * `buildPrompt(template, csvData, userQuery)`, given the template's text and the
   * serialised rows `csvDataString`.
   */
  function BuildPrompt(template: string, csvDataString: string, userQuery: string): (prompt: string)
    ensures !Contains(template, CSV_PLACEHOLDER) && !Contains(template, QUERY_PLACEHOLDER) ==> prompt == template
  {
    ReplaceFirst(ReplaceFirst(template, CSV_PLACEHOLDER, csvDataString), QUERY_PLACEHOLDER, userQuery)
  }

  /** Replacing a self-non-overlapping pattern that does not occur before `x`'s end puts `replacement` right after `x`. */
  lemma ReplaceAfterPrefix(x: string, pattern: string, y: string, replacement: string)
    requires |pattern| > 0 && pattern[0] !in pattern[1..]
    requires !Contains(x, pattern)
    requires '$' !in replacement
    ensures ReplaceFirst(x + pattern + y, pattern, replacement) == x + replacement + y
  {
    var s := x + pattern + y;
    FirstAfterPrefix(x, pattern, y);
    assert s[..|x|] == x;
    assert s[|x| + |pattern|..] == y;
  }

  lemma PlaceholdersDoNotOverlap()
    ensures CSV_PLACEHOLDER[0] !in CSV_PLACEHOLDER[1..]
    ensures QUERY_PLACEHOLDER[0] !in QUERY_PLACEHOLDER[1..]
  {
    assert forall i :: 1 <= i < |CSV_PLACEHOLDER| ==> CSV_PLACEHOLDER[i] != '{';
    assert forall i :: 1 <= i < |QUERY_PLACEHOLDER| ==> QUERY_PLACEHOLDER[i] != '{';
  }

  /**
   * A template `pre {CSV} mid {QUERY} post` becomes `pre data mid query post`, provided the
   * data placeholder is not already in `pre`, the query placeholder not in `pre + data + mid`,
   * and neither inserted text holds a `$`.
   */
  lemma BuildPromptFillsPlaceholders(pre: string, mid: string, post: string, csvDataString: string, userQuery: string)
    requires !Contains(pre, CSV_PLACEHOLDER)
    requires !Contains(pre + csvDataString + mid, QUERY_PLACEHOLDER)
    requires '$' !in csvDataString && '$' !in userQuery
    ensures BuildPrompt(pre + CSV_PLACEHOLDER + mid + QUERY_PLACEHOLDER + post, csvDataString, userQuery)
         == pre + csvDataString + mid + userQuery + post
  {
    PlaceholdersDoNotOverlap();
    var rest := mid + QUERY_PLACEHOLDER + post;
    assert pre + CSV_PLACEHOLDER + mid + QUERY_PLACEHOLDER + post == pre + CSV_PLACEHOLDER + rest;
    ReplaceAfterPrefix(pre, CSV_PLACEHOLDER, rest, csvDataString);
    var x := pre + csvDataString + mid;
    assert pre + csvDataString + rest == x + QUERY_PLACEHOLDER + post;
    ReplaceAfterPrefix(x, QUERY_PLACEHOLDER, post, userQuery);
  }

  /**
   * The query is not always embedded verbatim: a query `$&` is expanded to the
   * matched placeholder, so the prompt still reads `{USER_QUERY_GOES_HERE}`.
   */
  lemma QueryDollarPatternExpanded(pre: string, csvDataString: string)
    requires !Contains(pre, CSV_PLACEHOLDER)
    requires !Contains(pre + csvDataString, QUERY_PLACEHOLDER)
    requires '$' !in csvDataString
    ensures BuildPrompt(pre + CSV_PLACEHOLDER + QUERY_PLACEHOLDER, csvDataString, "$&")
         == pre + csvDataString + QUERY_PLACEHOLDER
  {
    PlaceholdersDoNotOverlap();
    ReplaceAfterPrefix(pre, CSV_PLACEHOLDER, QUERY_PLACEHOLDER, csvDataString);
    var x := pre + csvDataString;
    var s := x + QUERY_PLACEHOLDER + "";
    assert x + QUERY_PLACEHOLDER == s;
    FirstAfterPrefix(x, QUERY_PLACEHOLDER, "");
    assert s[..|x|] == x;
    assert s[|x| + |QUERY_PLACEHOLDER|..] == "";
    assert Substitute("$&", QUERY_PLACEHOLDER, x, "") == QUERY_PLACEHOLDER + Substitute("", QUERY_PLACEHOLDER, x, "");
  }
}

=== FILE: request_manager.dfy ===
/**
 * The browser-side limiter: a sliding one-minute window of request timestamps plus a
 * per-day counter, kept in a stored state, checked against two limits.
 * The clock (`Date.now()`), the day (`new Date().toDateString()`) and the stored
 * state are given to each operation instead of being read from the browser.
 */
module RequestManager {
  import opened Common

  /** What `new Date().toDateString()` returns, such as `Sat Oct 11 2026`. */
  type Day = string

  const DEFAULT_RPM: int := 10
  const DEFAULT_RPD: int := 250
  /** The width of the sliding window, in milliseconds. */
  const WINDOW_MS: int := 60 * 1000

  /** `daily: { date, count }`; a `null` date is `None`. */
  datatype Daily = Daily(date: Option<Day>, count: nat)

  /** The JSON object kept under `requestManagerState`. */
  datatype StoredState = StoredState(minute: seq<int>, daily: Daily)

  /** The state used when nothing, or nothing parseable, is stored. */
  const INITIAL: StoredState := StoredState([], Daily(None, 0))

  /**
   * `loadState()`: the stored state, or the initial one when the key is absent or its
   * text does not parse (both are `None` here).
   */
  function LoadState(stored: Option<StoredState>): (s: StoredState)
    ensures stored.Some? ==> s == stored.value
    ensures stored.None? ==> s.minute == [] && s.daily.date.None? && s.daily.count == 0
  {
    if stored.Some? then stored.value else INITIAL
  }

  /** A timestamp is still inside the window at `now`. */
  predicate InWindow(ts: int, now: int) {
    now - ts < WINDOW_MS
  }

  /** `trimMinute(arr)`: the timestamps still inside the window at `now`, in their order. */
  function TrimMinute(arr: seq<int>, now: int): (r: seq<int>)
    ensures |r| <= |arr|
    ensures forall k :: 0 <= k < |r| ==> InWindow(r[k], now)
  {
    if arr == [] then []
    else (if InWindow(arr[0], now) then [arr[0]] else []) + TrimMinute(arr[1..], now)
  }

  /** Trimming keeps every occurrence of a timestamp inside the window and drops every other. */
  lemma {:induction false} TrimContents(arr: seq<int>, now: int)
    ensures forall ts :: multiset(TrimMinute(arr, now))[ts] == if InWindow(ts, now) then multiset(arr)[ts] else 0
  {
    if arr != [] {
      TrimContents(arr[1..], now);
      assert arr == [arr[0]] + arr[1..];
    }
  }

  /** Trimming a concatenation trims each part and keeps them in order. */
  lemma {:induction false} TrimConcat(a: seq<int>, b: seq<int>, now: int)
    ensures TrimMinute(a + b, now) == TrimMinute(a, now) + TrimMinute(b, now)
  {
    if a == [] {
      assert a + b == b;
    } else {
      var head := if InWindow(a[0], now) then [a[0]] else [];
      assert (a + b)[0] == a[0];
      assert (a + b)[1..] == a[1..] + b;
      assert TrimMinute(a + b, now) == head + TrimMinute(a[1..] + b, now);
      TrimConcat(a[1..], b, now);
      assert TrimMinute(a, now) == head + TrimMinute(a[1..], now);
      assert head + (TrimMinute(a[1..], now) + TrimMinute(b, now))
          == (head + TrimMinute(a[1..], now)) + TrimMinute(b, now);
    }
  }

  /** A sequence whose every timestamp is inside the window trims to itself. */
  lemma {:induction false} TrimKeepsInWindow(arr: seq<int>, now: int)
    requires forall k :: 0 <= k < |arr| ==> InWindow(arr[k], now)
    ensures TrimMinute(arr, now) == arr
  {
    if arr != [] {
      TrimKeepsInWindow(arr[1..], now);
      assert [arr[0]] + arr[1..] == arr;
    }
  }

  /** Trimming twice at the same instant is trimming once. */
  lemma TrimIdempotent(arr: seq<int>, now: int)
    ensures TrimMinute(TrimMinute(arr, now), now) == TrimMinute(arr, now)
  {
    TrimKeepsInWindow(TrimMinute(arr, now), now);
  }

  /** `(state.daily.date === today) ? state.daily.count : 0`. */
  function DailyCount(daily: Daily, today: Day): (n: nat)
    ensures daily.date != Some(today) ==> n == 0
    ensures daily.date == Some(today) ==> n == daily.count
  {
    if daily.date == Some(today) then daily.count else 0
  }

  /** `Math.ceil(ms / 1000)` on a whole number of milliseconds. */
  function CeilSeconds(ms: int): (s: int)
    ensures 1000 * (s - 1) < ms <= 1000 * s
  {
    -((-ms) / 1000)
  }

  /**
   * The result of `canSendRequest()`. `retryAfterSec` is `None` where JavaScript computes
   * `NaN`: the window is empty, so `state.minute[0]` is `undefined`.
   */
  datatype Decision =
    | Allowed(minuteCount: nat, dailyCount: nat)
    | RpmLimited(retryAfterSec: Option<int>)
    | RpdLimited

  /**
   * `canSendRequest()` on the loaded state: the per-minute limit is checked first, then
   * the per-day one. It computes a value and stores nothing.
   */
  function CanSendRequest(state: StoredState, now: int, today: Day, rpm: int, rpd: int): (d: Decision)
    ensures var minute := TrimMinute(state.minute, now);
      && (d.RpmLimited? <==> |minute| >= rpm)
      && (d.RpdLimited? <==> |minute| < rpm && DailyCount(state.daily, today) >= rpd)
      && (d.Allowed? ==> d.minuteCount == |minute| < rpm && d.dailyCount == DailyCount(state.daily, today) < rpd)
      && (d.RpmLimited? ==> (d.retryAfterSec.None? <==> minute == []))
      && (d.RpmLimited? && d.retryAfterSec.Some? ==>
            && 1 <= d.retryAfterSec.value
            && (minute[0] <= now ==> d.retryAfterSec.value <= 60)
            && !InWindow(minute[0], now + 1000 * d.retryAfterSec.value)
            && InWindow(minute[0], now + 1000 * (d.retryAfterSec.value - 1)))
  {
    var minute := TrimMinute(state.minute, now);
    var minuteCount := |minute|;
    var dailyCount := DailyCount(state.daily, today);
    if minuteCount >= rpm then
      if minute == [] then RpmLimited(None)
      else RpmLimited(Some(CeilSeconds(WINDOW_MS - (now - minute[0]))))
    else if dailyCount >= rpd then RpdLimited
    else Allowed(minuteCount, dailyCount)
  }

  /** `recordRequest()`'s new state: the trimmed window plus `now`, and today's count plus one. */
  function Recorded(state: StoredState, now: int, today: Day): (s: StoredState)
    ensures s.minute == TrimMinute(state.minute, now) + [now]
    ensures s.daily.date == Some(today)
    ensures s.daily.count == if state.daily.date == Some(today) then state.daily.count + 1 else 1
  {
    var daily := if state.daily.date != Some(today) then Daily(Some(today), 0) else state.daily;
    StoredState(TrimMinute(state.minute, now) + [now], daily.(count := daily.count + 1))
  }

  /**
   * Recording a request adds exactly one to both counts that `canSendRequest` compares
   * at the same instant, and starts the day's count afresh on a new day.
   */
  lemma RecordedCounts(state: StoredState, now: int, today: Day)
    ensures var s := Recorded(state, now, today);
      && |TrimMinute(s.minute, now)| == |TrimMinute(state.minute, now)| + 1
      && DailyCount(s.daily, today) == DailyCount(state.daily, today) + 1
      && (state.daily.date != Some(today) ==> s.daily.count == 1)
  {
    var trimmed := TrimMinute(state.minute, now);
    TrimConcat(trimmed, [now], now);
    TrimIdempotent(state.minute, now);
    assert TrimMinute([now], now) == [now] by {
      assert [now][1..] == [];
    }
  }

  /** Recording the request that reaches the per-minute limit makes the next check at that instant refuse with `rpm`. */
  lemma RecordReachesMinuteLimit(state: StoredState, now: int, today: Day, rpm: int, rpd: int)
    requires |TrimMinute(state.minute, now)| + 1 == rpm
    ensures CanSendRequest(Recorded(state, now, today), now, today, rpm, rpd).RpmLimited?
  {
    RecordedCounts(state, now, today);
  }

  /** `options.rpm || DEFAULT_RPM`: a missing or zero option falls back to the default. */
  function OrDefault(option: Option<int>, default: int): int {
    if option.Some? && option.value != 0 then option.value else default
  }

  /**
   * The limiter's module state: the two limits and the browser's stored state, `None`
   * when the key is absent or holds text that does not parse.
   */
  class Limiter {
    var limitRpm: int
    var limitRpd: int
    var storage: Option<StoredState>

    /** The module as loaded: default limits, whatever the browser already stores. */
    constructor(storage: Option<StoredState>)
      ensures limitRpm == DEFAULT_RPM && limitRpd == DEFAULT_RPD && this.storage == storage
    {
      limitRpm := DEFAULT_RPM;
      limitRpd := DEFAULT_RPD;
      this.storage := storage;
    }

    /** `initRequestManager(options)`: pick the limits, then save the loaded state back. */
    method InitRequestManager(rpm: Option<int>, rpd: Option<int>) returns (limits: (int, int))
      modifies this
      ensures rpm.Some? && rpm.value != 0 ==> limitRpm == rpm.value
      ensures rpm.None? || rpm.value == 0 ==> limitRpm == DEFAULT_RPM
      ensures rpd.Some? && rpd.value != 0 ==> limitRpd == rpd.value
      ensures rpd.None? || rpd.value == 0 ==> limitRpd == DEFAULT_RPD
      ensures storage == Some(LoadState(old(storage)))
      ensures limits == (limitRpm, limitRpd)
    {
      limitRpm := OrDefault(rpm, DEFAULT_RPM);
      limitRpd := OrDefault(rpd, DEFAULT_RPD);
      var s := LoadState(storage);
      storage := Some(s);
      limits := (limitRpm, limitRpd);
    }

    /**
     * `canSendRequest()` against this limiter's limits and stored state. It only reads
     * the limiter: nothing is saved. With nothing stored and positive limits, the
     * first request is allowed.
     */
    function Check(now: int, today: Day): (d: Decision)
      reads this
      ensures d.Allowed? ==> d.minuteCount < limitRpm && d.dailyCount < limitRpd
      ensures storage.None? && limitRpm > 0 && limitRpd > 0 ==> d == Allowed(0, 0)
    {
      CanSendRequest(LoadState(storage), now, today, limitRpm, limitRpd)
    }

    /** `recordRequest()`: trim, push `now`, reset the day if it changed, count, save. */
    method RecordRequest(now: int, today: Day)
      modifies this
      ensures storage == Some(Recorded(LoadState(old(storage)), now, today))
      ensures limitRpm == old(limitRpm) && limitRpd == old(limitRpd)
    {
      var state := LoadState(storage);
      var minute := TrimMinute(state.minute, now);
      minute := minute + [now];
      var daily := state.daily;
      if daily.date != Some(today) {
        daily := Daily(Some(today), 0);
      }
      daily := daily.(count := daily.count + 1);
      storage := Some(StoredState(minute, daily));
    }
  }
}

=== FILE: sources.dfy ===
/**
 * `findSources`: which CSV rows the model's answer mentions, turned into
 * clickable links, at most one per distinct `Name`.
 */
module Sources {
  import opened Common
  import opened Strings
  import opened DataStore

  /** `{ title, uri }`. */
  datatype Source = Source(title: string, uri: string)

  /** `row[key]`, with `""` (falsy, like `undefined`) when the column is absent. */
  function Field(row: Row, key: string): string {
    if key in row then row[key] else ""
  }

  function NameOf(row: Row): string {
    Field(row, "Name")
  }

  /** `url && url.startsWith('http')`. */
  predicate IsLink(url: string) {
    url != "" && IsPrefix("http", url)
  }

  /** `name && aiText.toLowerCase().includes(name.toLowerCase())`. */
  predicate Mentioned(aiText: string, name: string) {
    name != "" && Contains(Lower(aiText), Lower(name))
  }

  /** The one link a row can offer: its website if valid, else its social-media page if valid. */
  function LinkOf(row: Row): (link: Option<Source>)
    ensures link.Some? ==> IsLink(link.value.uri)
    ensures link.Some? ==> link.value.title == NameOf(row) + " - Website" || link.value.title == NameOf(row) + " - Social Media"
    ensures IsLink(Field(row, "Website")) ==> link == Some(Source(NameOf(row) + " - Website", Field(row, "Website")))
    ensures !IsLink(Field(row, "Website")) && IsLink(Field(row, "Social_Media")) ==>
      link == Some(Source(NameOf(row) + " - Social Media", Field(row, "Social_Media")))
    ensures link.None? <==> !IsLink(Field(row, "Website")) && !IsLink(Field(row, "Social_Media"))
  {
    var website := Field(row, "Website");
    var social := Field(row, "Social_Media");
    if IsLink(website) then Some(Source(NameOf(row) + " - Website", website))
    else if IsLink(social) then Some(Source(NameOf(row) + " - Social Media", social))
    else None
  }

  /** The answer mentions the row and the row has a link to offer. */
  predicate Linked(aiText: string, row: Row) {
    Mentioned(aiText, NameOf(row)) && LinkOf(row).Some?
  }

  /** What the scan needs to know about one row: its name, and whether it is linked. */
  datatype Candidate = Candidate(name: string, linked: bool)

  /** The candidate of every row, in row order. */
  function Candidates(aiText: string, rows: seq<Row>): (cs: seq<Candidate>)
    ensures |cs| == |rows|
    ensures forall i :: 0 <= i < |rows| ==> cs[i].name == NameOf(rows[i])
    decreases |rows|
  {
    if rows == [] then []
    else
      var last := rows[|rows| - 1];
      Candidates(aiText, rows[..|rows| - 1]) + [Candidate(NameOf(last), Linked(aiText, last))]
  }

  /** A row's candidate is linked exactly when the answer mentions the row and it has a link. */
  lemma {:induction false} CandidateAt(aiText: string, rows: seq<Row>, i: nat)
    requires i < |rows|
    ensures Candidates(aiText, rows)[i] == Candidate(NameOf(rows[i]), Linked(aiText, rows[i]))
    decreases |rows|
  {
    var init := rows[..|rows| - 1];
    assert Candidates(aiText, rows) == Candidates(aiText, init) + [Candidate(NameOf(rows[|rows| - 1]), Linked(aiText, rows[|rows| - 1]))];
    if i < |rows| - 1 {
      CandidateAt(aiText, init, i);
      assert init[i] == rows[i];
    }
  }

  /** Only a row with a link gives a linked candidate. */
  lemma CandidatesLinked(aiText: string, rows: seq<Row>)
    ensures forall i :: 0 <= i < |rows| ==> Candidates(aiText, rows)[i].linked ==> LinkOf(rows[i]).Some?
  {
    forall i | 0 <= i < |rows| ensures Candidates(aiText, rows)[i].linked ==> LinkOf(rows[i]).Some? {
      CandidateAt(aiText, rows, i);
    }
  }

  /** Some candidate before index `i` with this name is linked. */
  predicate NameLinkedBefore(cs: seq<Candidate>, i: nat, name: string)
    requires i <= |cs|
  {
    exists j :: 0 <= j < i && cs[j].linked && cs[j].name == name
  }

  /** `found` holds exactly the names of the linked candidates before index `i`. */
  ghost predicate FoundExactly(cs: seq<Candidate>, i: nat, found: set<string>)
    requires i <= |cs|
  {
    forall n :: n in found <==> NameLinkedBefore(cs, i, n)
  }

  /** Candidate `i` adds a source: it is linked and no earlier linked candidate has its name. */
  predicate Contributes(cs: seq<Candidate>, i: nat)
    requires i < |cs|
  {
    cs[i].linked && !NameLinkedBefore(cs, i, cs[i].name)
  }

  /** The indices, among the first `n` candidates, of those that add a source, in row order. */
  function Picks(cs: seq<Candidate>, n: nat): (ps: seq<nat>)
    requires n <= |cs|
    ensures |ps| <= n
    ensures forall k :: 0 <= k < |ps| ==> ps[k] < n && cs[ps[k]].linked
  {
    if n == 0 then []
    else
      var ps := Picks(cs, n - 1);
      if Contributes(cs, n - 1) then ps + [n - 1] else ps
  }

  /** Every pick contributes. */
  lemma {:induction false} PicksContribute(cs: seq<Candidate>, n: nat)
    requires n <= |cs|
    ensures forall k :: 0 <= k < |Picks(cs, n)| ==> Contributes(cs, Picks(cs, n)[k])
  {
    if n > 0 {
      PicksContribute(cs, n - 1);
      var ps := Picks(cs, n - 1);
      var qs := Picks(cs, n);
      PicksLast(cs, n);
      forall k | 0 <= k < |qs| ensures Contributes(cs, qs[k]) {
        if k < |ps| {
          PicksExtend(cs, n, k);
        } else {
          assert qs == ps + [n - 1];
        }
      }
    }
  }

  /** The picks are in row order. */
  lemma {:induction false} PicksIncreasing(cs: seq<Candidate>, n: nat)
    requires n <= |cs|
    ensures forall k, l :: 0 <= k < l < |Picks(cs, n)| ==> Picks(cs, n)[k] < Picks(cs, n)[l]
  {
    if n > 0 {
      PicksIncreasing(cs, n - 1);
      var ps := Picks(cs, n - 1);
      var qs := Picks(cs, n);
      PicksLast(cs, n);
      forall k, l | 0 <= k < l < |qs| ensures qs[k] < qs[l] {
        PicksExtend(cs, n, k);
        if l < |ps| {
          PicksExtend(cs, n, l);
        }
      }
    }
  }

  /** Every candidate among the first `n` that contributes is picked. */
  lemma PicksComplete(cs: seq<Candidate>, n: nat, i: nat)
    requires i < n <= |cs| && Contributes(cs, i)
    ensures i in Picks(cs, n)
  {
    assert Picks(cs, i + 1) == Picks(cs, i) + [i];
    PicksMonotone(cs, i + 1, n, i);
  }

  /** A candidate picked among the first `m` stays picked among the first `n >= m`. */
  lemma {:induction false} PicksMonotone(cs: seq<Candidate>, m: nat, n: nat, i: nat)
    requires m <= n <= |cs| && i in Picks(cs, m)
    ensures i in Picks(cs, n)
    decreases n - m
  {
    if m < n {
      var k :| 0 <= k < |Picks(cs, m)| && Picks(cs, m)[k] == i;
      PicksExtend(cs, m + 1, k);
      PicksMonotone(cs, m + 1, n, i);
    }
  }

  /** Candidate `n - 1` is picked after all earlier picks, or nothing is added. */
  lemma PicksLast(cs: seq<Candidate>, n: nat)
    requires 0 < n <= |cs|
    ensures var ps, qs := Picks(cs, n - 1), Picks(cs, n);
      && (Contributes(cs, n - 1) ==> qs == ps + [n - 1])
      && (!Contributes(cs, n - 1) ==> qs == ps)
  {
  }

  /** A pick among the first `n - 1` candidates stays a pick, at the same place, among the first `n`. */
  lemma PicksExtend(cs: seq<Candidate>, n: nat, k: nat)
    requires 0 < n <= |cs| && k < |Picks(cs, n - 1)|
    ensures k < |Picks(cs, n)| && Picks(cs, n)[k] == Picks(cs, n - 1)[k]
  {
  }

  /** The sources the rows at indices `ps` offer, in that order. */
  function SourcesOf(rows: seq<Row>, ps: seq<nat>): (out: seq<Source>)
    requires forall k :: 0 <= k < |ps| ==> ps[k] < |rows| && LinkOf(rows[ps[k]]).Some?
    ensures |out| == |ps|
    ensures forall k :: 0 <= k < |ps| ==> out[k] == LinkOf(rows[ps[k]]).value
  {
    if ps == [] then []
    else SourcesOf(rows, ps[..|ps| - 1]) + [LinkOf(rows[ps[|ps| - 1]]).value]
  }

  /** The rows among the first `n` that `findSources` turns into sources, in row order. */
  function PickedRows(aiText: string, rows: seq<Row>, n: nat): (ps: seq<nat>)
    requires n <= |rows|
    ensures forall k :: 0 <= k < |ps| ==> ps[k] < n && LinkOf(rows[ps[k]]).Some?
  {
    CandidatesLinked(aiText, rows);
    Picks(Candidates(aiText, rows), n)
  }

  /** What `findSources(aiText, rows)` returns. */
  function ExpectedSources(aiText: string, rows: seq<Row>): seq<Source> {
    SourcesOf(rows, PickedRows(aiText, rows, |rows|))
  }

  /**
   * The shape of the result: at most one source per row, every `uri` starts with
   * `http`, every title is the name of a row the answer mentions followed by
   * ` - Website` or ` - Social Media`.
   */
  lemma SourcesShape(aiText: string, rows: seq<Row>)
    ensures var out := ExpectedSources(aiText, rows);
      && |out| <= |rows|
      && forall k :: 0 <= k < |out| ==>
           && IsPrefix("http", out[k].uri)
           && exists i :: 0 <= i < |rows| && Mentioned(aiText, NameOf(rows[i])) &&
                (out[k].title == NameOf(rows[i]) + " - Website" || out[k].title == NameOf(rows[i]) + " - Social Media")
  {
    var ps := PickedRows(aiText, rows, |rows|);
    var out := ExpectedSources(aiText, rows);
    forall k | 0 <= k < |out|
      ensures exists i :: 0 <= i < |rows| && Mentioned(aiText, NameOf(rows[i])) &&
                (out[k].title == NameOf(rows[i]) + " - Website" || out[k].title == NameOf(rows[i]) + " - Social Media")
    {
      var i := ps[k];
      CandidateAt(aiText, rows, i);
      assert out[k] == LinkOf(rows[i]).value;
    }
  }

  /** The sources follow the order of the rows they come from. */
  lemma SourcesInRowOrder(aiText: string, rows: seq<Row>)
    ensures var ps, out := PickedRows(aiText, rows, |rows|), ExpectedSources(aiText, rows);
      && |out| == |ps|
      && (forall k, l :: 0 <= k < l < |ps| ==> ps[k] < ps[l])
      && (forall k :: 0 <= k < |ps| ==> out[k] == LinkOf(rows[ps[k]]).value)
  {
    PicksIncreasing(Candidates(aiText, rows), |rows|);
  }

  /** Two sources never come from rows with the same `Name`, even when one row has two valid links. */
  lemma AtMostOnePerName(aiText: string, rows: seq<Row>)
    ensures var ps := PickedRows(aiText, rows, |rows|);
      forall k, l :: 0 <= k < l < |ps| ==> NameOf(rows[ps[k]]) != NameOf(rows[ps[l]])
  {
    var cs := Candidates(aiText, rows);
    var ps := PickedRows(aiText, rows, |rows|);
    PicksContribute(cs, |rows|);
    PicksIncreasing(cs, |rows|);
    forall k, l | 0 <= k < l < |ps| ensures NameOf(rows[ps[k]]) != NameOf(rows[ps[l]]) {
      assert Contributes(cs, ps[k]);
      assert !NameLinkedBefore(cs, ps[l], cs[ps[l]].name);
    }
  }

  /** A later row with a name that already produced a source contributes nothing. */
  lemma LaterDuplicateIgnored(aiText: string, rows: seq<Row>, j: nat, i: nat)
    requires j < i < |rows|
    requires Linked(aiText, rows[j]) && NameOf(rows[j]) == NameOf(rows[i])
    ensures i !in PickedRows(aiText, rows, |rows|)
  {
    var cs := Candidates(aiText, rows);
    CandidateAt(aiText, rows, j);
    PicksContribute(cs, |rows|);
    assert NameLinkedBefore(cs, i, cs[i].name);
  }

  /** A row with no name, or whose name the answer does not mention (ignoring case), contributes nothing. */
  lemma UnmentionedIgnored(aiText: string, rows: seq<Row>, i: nat)
    requires i < |rows| && !Mentioned(aiText, NameOf(rows[i]))
    ensures i !in PickedRows(aiText, rows, |rows|)
  {
    CandidateAt(aiText, rows, i);
  }

  /** A row whose name is mentioned first, with a valid link, contributes, and contributes its website if valid. */
  lemma FirstMentionContributes(aiText: string, rows: seq<Row>, i: nat)
    requires i < |rows| && Linked(aiText, rows[i])
    requires forall j :: 0 <= j < i && NameOf(rows[j]) == NameOf(rows[i]) ==> !Linked(aiText, rows[j])
    ensures i in PickedRows(aiText, rows, |rows|)
    ensures IsLink(Field(rows[i], "Website")) ==>
      Source(NameOf(rows[i]) + " - Website", Field(rows[i], "Website")) in ExpectedSources(aiText, rows)
  {
    var cs := Candidates(aiText, rows);
    var ps := PickedRows(aiText, rows, |rows|);
    CandidateAt(aiText, rows, i);
    forall j | 0 <= j < i ensures cs[j] == Candidate(NameOf(rows[j]), Linked(aiText, rows[j])) {
      CandidateAt(aiText, rows, j);
    }
    assert Contributes(cs, i);
    PicksComplete(cs, |rows|, i);
    var k :| 0 <= k < |ps| && ps[k] == i;
    assert ExpectedSources(aiText, rows)[k] == LinkOf(rows[i]).value;
  }

  /** A single mentioned row with a link yields exactly its link. */
  lemma SingleRowSources(aiText: string, row: Row)
    requires Linked(aiText, row)
    ensures ExpectedSources(aiText, [row]) == [LinkOf(row).value]
  {
    var rows := [row];
    var cs := Candidates(aiText, rows);
    CandidateAt(aiText, rows, 0);
    assert Contributes(cs, 0);
    assert PickedRows(aiText, rows, 1) == [] + [0];
    SourcesOfAppend(rows, [], 0);
  }

  /** Appending one index appends that row's source. */
  lemma SourcesOfAppend(rows: seq<Row>, ps: seq<nat>, i: nat)
    requires forall k :: 0 <= k < |ps| ==> ps[k] < |rows| && LinkOf(rows[ps[k]]).Some?
    requires i < |rows| && LinkOf(rows[i]).Some?
    ensures SourcesOf(rows, ps + [i]) == SourcesOf(rows, ps) + [LinkOf(rows[i]).value]
  {
    assert (ps + [i])[..|ps|] == ps;
  }

  /**
   * With `found` holding exactly the names linked before candidate `i`, it contributes
   * iff it is linked and its name is not in `found`, and adding its name when it is
   * linked gives the names linked before candidate `i + 1`.
   */
  lemma FoundNamesStep(cs: seq<Candidate>, i: nat, found: set<string>, found': set<string>)
    requires i < |cs|
    requires FoundExactly(cs, i, found)
    requires found' == found + (if cs[i].linked then {cs[i].name} else {})
    ensures Contributes(cs, i) <==> cs[i].linked && cs[i].name !in found
    ensures FoundExactly(cs, i + 1, found')
  {
    forall n ensures n in found' <==> NameLinkedBefore(cs, i + 1, n) {
      if NameLinkedBefore(cs, i, n) {
        var j :| 0 <= j < i && cs[j].linked && cs[j].name == n;
        assert 0 <= j < i + 1;
      }
      if NameLinkedBefore(cs, i + 1, n) && !NameLinkedBefore(cs, i, n) {
        var j :| 0 <= j < i + 1 && cs[j].linked && cs[j].name == n;
        assert j == i;
      }
      if cs[i].linked && n == cs[i].name {
        assert 0 <= i < i + 1;
      }
    }
  }

  /** After the first `i` rows, the scan holds their sources and the names they linked. */
  ghost predicate Scanned(aiText: string, rows: seq<Row>, i: nat, sources: seq<Source>, found: set<string>) {
    && i <= |rows|
    && sources == SourcesOf(rows, PickedRows(aiText, rows, i))
    && FoundExactly(Candidates(aiText, rows), i, found)
  }

  /** One row's effect on the scan: its name joins `found` if it is linked, and its link is pushed if the name is new. */
  ghost predicate Stepped(aiText: string, row: Row, sources: seq<Source>, found: set<string>,
                          sources': seq<Source>, found': set<string>) {
    && found' == found + (if Linked(aiText, row) then {NameOf(row)} else {})
    && sources' == sources + (if Linked(aiText, row) && NameOf(row) !in found then [LinkOf(row).value] else [])
  }

  /** One turn of the scan keeps its invariant. */
  lemma ScanStep(aiText: string, rows: seq<Row>, i: nat, sources: seq<Source>, found: set<string>,
                 sources': seq<Source>, found': set<string>)
    requires i < |rows| && Scanned(aiText, rows, i, sources, found)
    requires Stepped(aiText, rows[i], sources, found, sources', found')
    ensures Scanned(aiText, rows, i + 1, sources', found')
  {
    var cs := Candidates(aiText, rows);
    CandidateAt(aiText, rows, i);
    FoundNamesStep(cs, i, found, found');
    var ps := Picks(cs, i);
    PicksLast(cs, i + 1);
    if Contributes(cs, i) {
      SourcesOfAppend(rows, ps, i);
    } else {
      assert sources' == sources;
    }
  }

  /**
   * The body of the scan for one row: if the answer mentions the row's name, push its
   * website, else its social-media page, unless its name was already found.
   */
  method ScanRow(aiText: string, row: Row, sources: seq<Source>, foundNames: set<string>)
    returns (sources': seq<Source>, foundNames': set<string>)
    ensures Stepped(aiText, row, sources, foundNames, sources', foundNames')
  {
    sources', foundNames' := sources, foundNames;
    var name := Field(row, "Name");
    if Mentioned(aiText, name) {
      var website := Field(row, "Website");
      if IsLink(website) && name !in foundNames' {
        sources' := sources' + [Source(name + " - Website", website)];
        foundNames' := foundNames' + {name};
      }
      var social := Field(row, "Social_Media");
      if IsLink(social) && name !in foundNames' {
        sources' := sources' + [Source(name + " - Social Media", social)];
        foundNames' := foundNames' + {name};
      }
    }
  }

  /** `findSources(aiText, csvData)`: one pass over the rows with a `foundNames` set. */
  method FindSources(aiText: string, rows: seq<Row>) returns (sources: seq<Source>)
    ensures sources == ExpectedSources(aiText, rows)
  {
    sources := [];
    var foundNames: set<string> := {};
    for i := 0 to |rows|
      invariant Scanned(aiText, rows, i, sources, foundNames)
    {
      var sources', foundNames' := ScanRow(aiText, rows[i], sources, foundNames);
      ScanStep(aiText, rows, i, sources, foundNames, sources', foundNames');
      sources, foundNames := sources', foundNames';
    }
  }
}

=== FILE: strings.dfy ===
/**
 * The few JavaScript string operations the server relies on: `startsWith`,
 * `indexOf`/`includes`, `toLowerCase`, `trim` and `length` (in UTF-16 code units).
 */
module Strings {
  import opened Common

  /** `s.startsWith(p)`. */
  predicate IsPrefix(p: string, s: string) {
    |p| <= |s| && s[..|p|] == p
  }

  /** `pat` occurs in `s` starting at index `i`. */
  predicate OccursAt(s: string, pat: string, i: nat) {
    i + |pat| <= |s| && s[i..i + |pat|] == pat
  }

  /** `s.indexOf(pat, k)`: the first occurrence of `pat` at or after `k`. */
  function IndexFrom(s: string, pat: string, k: nat): (r: Option<nat>)
    ensures r.Some? ==> k <= r.value && OccursAt(s, pat, r.value)
    ensures r.Some? ==> forall j :: k <= j < r.value ==> !OccursAt(s, pat, j)
    ensures r.None? ==> forall j :: k <= j ==> !OccursAt(s, pat, j)
    decreases |s| - k
  {
    if k + |pat| > |s| then None
    else if OccursAt(s, pat, k) then Some(k)
    else IndexFrom(s, pat, k + 1)
  }

  /** `s.indexOf(pat)`, with `None` for -1. */
  function IndexOf(s: string, pat: string): Option<nat> {
    IndexFrom(s, pat, 0)
  }

  /** `s.includes(pat)`. */
  predicate Contains(s: string, pat: string) {
    IndexOf(s, pat).Some?
  }

  lemma ContainsIff(s: string, pat: string)
    ensures Contains(s, pat) <==> exists i: nat :: OccursAt(s, pat, i)
  {
    if Contains(s, pat) {
      assert OccursAt(s, pat, IndexOf(s, pat).value);
    }
  }

  /**
   * `toLowerCase` on one character, for the scripts the data uses: ASCII,
   * Latin-1 and Greek capitals (sigma always becomes the medial form).
   */
  function LowerChar(c: char): char {
    if 'A' <= c <= 'Z' then (c as int + 32) as char
    else if 0xC0 <= c as int <= 0xDE && c as int != 0xD7 then (c as int + 32) as char
    else if 0x391 <= c as int <= 0x3AB && c as int != 0x3A2 then (c as int + 32) as char
    else if c as int == 0x386 then 0x3AC as char
    else if 0x388 <= c as int <= 0x38A then (c as int + 37) as char
    else if c as int == 0x38C then 0x3CC as char
    else if 0x38E <= c as int <= 0x38F then (c as int + 63) as char
    else c
  }

  /** `s.toLowerCase()`, character by character. */
  function Lower(s: string): (r: string)
    ensures |r| == |s|
  {
    if s == [] then [] else [LowerChar(s[0])] + Lower(s[1..])
  }

  /** `toLowerCase` maps each character on its own. */
  lemma {:induction false} LowerPointwise(s: string)
    ensures forall i :: 0 <= i < |s| ==> Lower(s)[i] == LowerChar(s[i])
  {
    if s != [] {
      LowerPointwise(s[1..]);
      forall i | 0 <= i < |s| ensures Lower(s)[i] == LowerChar(s[i]) {
        if i > 0 {
          assert Lower(s)[i] == Lower(s[1..])[i - 1];
          assert s[1..][i - 1] == s[i];
        }
      }
    }
  }

  /** Lower-casing both sides keeps an occurrence where it was. */
  lemma OccursLower(s: string, pat: string, i: nat)
    requires OccursAt(s, pat, i)
    ensures OccursAt(Lower(s), Lower(pat), i)
  {
    LowerPointwise(s);
    LowerPointwise(pat);
    assert Lower(s)[i..i + |pat|] == Lower(pat) by {
      forall k | 0 <= k < |pat| ensures Lower(s)[i..i + |pat|][k] == Lower(pat)[k] {
        assert s[i..i + |pat|][k] == pat[k];
      }
    }
  }

  /** The characters `trim` removes: ECMAScript WhiteSpace and LineTerminator. */
  predicate IsWhitespace(c: char) {
    var n := c as int;
    n == 0x09 || n == 0x0A || n == 0x0B || n == 0x0C || n == 0x0D || n == 0x20 ||
    n == 0xA0 || n == 0x1680 || (0x2000 <= n <= 0x200A) || n == 0x2028 || n == 0x2029 ||
    n == 0x202F || n == 0x205F || n == 0x3000 || n == 0xFEFF
  }

  function TrimStart(s: string): (r: string)
    ensures |r| <= |s|
    ensures r != [] ==> !IsWhitespace(r[0])
    ensures r == s[|s| - |r|..]
    ensures AllWhitespace(s[..|s| - |r|])
  {
    if s != [] && IsWhitespace(s[0]) then TrimStart(s[1..]) else s
  }

  function TrimEnd(s: string): (r: string)
    ensures |r| <= |s|
    ensures r != [] ==> !IsWhitespace(r[|r| - 1])
    ensures r == s[..|r|]
    ensures AllWhitespace(s[|r|..])
  {
    if s != [] && IsWhitespace(s[|s| - 1]) then TrimEnd(s[..|s| - 1]) else s
  }

  /** Cutting a suffix off `s` and a prefix off what is left leaves three pieces that make up `s`. */
  lemma Reassemble(s: string, t: string, r: string)
    requires |t| <= |s| && t == s[|s| - |t|..]
    requires |r| <= |t| && r == t[..|r|]
    ensures s == s[..|s| - |t|] + r + t[|r|..]
  {
    assert t == r + t[|r|..];
    assert s == s[..|s| - |t|] + t;
  }

  lemma OccursBetween(s: string, a: string, r: string, b: string)
    requires s == a + r + b
    ensures OccursAt(s, r, |a|)
  {
    assert s[|a|..|a| + |r|] == r;
  }

  /** `s.trim()`: `s` with the whitespace at both ends cut off. */
  function Trim(s: string): (r: string)
    ensures |r| <= |s|
    ensures r != [] ==> !IsWhitespace(r[0]) && !IsWhitespace(r[|r| - 1])
    ensures exists i: nat :: OccursAt(s, r, i)
    ensures exists a, b :: s == a + r + b && AllWhitespace(a) && AllWhitespace(b)
  {
    var t := TrimStart(s);
    var r := TrimEnd(t);
    var a, b := s[..|s| - |t|], t[|r|..];
    Reassemble(s, t, r);
    OccursBetween(s, a, r, b);
    assert AllWhitespace(a) && AllWhitespace(b);
    r
  }

  predicate AllWhitespace(s: string) {
    forall i :: 0 <= i < |s| ==> IsWhitespace(s[i])
  }

  lemma {:induction false} TrimStartEmptyIff(s: string)
    ensures TrimStart(s) == [] <==> AllWhitespace(s)
    decreases |s|
  {
    if s != [] && IsWhitespace(s[0]) {
      TrimStartEmptyIff(s[1..]);
      if AllWhitespace(s[1..]) {
        forall i | 0 <= i < |s| ensures IsWhitespace(s[i]) {
          if i > 0 { assert s[i] == s[1..][i - 1]; }
        }
      }
    }
  }

  lemma {:induction false} TrimEndEmptyIff(s: string)
    ensures TrimEnd(s) == [] <==> AllWhitespace(s)
    decreases |s|
  {
    if s != [] && IsWhitespace(s[|s| - 1]) {
      var t := s[..|s| - 1];
      TrimEndEmptyIff(t);
      if AllWhitespace(t) {
        forall i | 0 <= i < |s| ensures IsWhitespace(s[i]) {
          if i < |s| - 1 { assert s[i] == t[i]; }
        }
      }
    }
  }

  /** A string trims to nothing exactly when every character of it is whitespace. */
  lemma TrimEmptyIff(s: string)
    ensures Trim(s) == [] <==> AllWhitespace(s)
  {
    TrimStartEmptyIff(s);
    TrimEndEmptyIff(TrimStart(s));
    if !AllWhitespace(s) {
      assert !AllWhitespace(TrimStart(s));
    }
  }

  /** `s.length`: characters outside the Basic Multilingual Plane are two UTF-16 code units. */
  function Utf16Length(s: string): (n: nat)
    ensures |s| <= n <= 2 * |s|
    ensures (forall i :: 0 <= i < |s| ==> s[i] as int <= 0xFFFF) ==> n == |s|
    ensures |s| == 1 ==> n == if s[0] as int > 0xFFFF then 2 else 1
  {
    if s == [] then 0
    else (if s[0] as int > 0xFFFF then 2 else 1) + Utf16Length(s[1..])
  }

  /** `length` adds up over concatenation: each character counts on its own. */
  lemma {:induction false} Utf16LengthConcat(a: string, b: string)
    ensures Utf16Length(a + b) == Utf16Length(a) + Utf16Length(b)
    decreases |a|
  {
    if a != [] {
      assert (a + b)[1..] == a[1..] + b;
      Utf16LengthConcat(a[1..], b);
    } else {
      assert a + b == b;
    }
  }
}

=== FILE: validation.dfy ===
/** The server's first line of defence: `validateBasicInput` on the `/chat` request fields. */
module Validation {
  import opened Common
  import opened Strings

  /** The longest accepted query, counted in UTF-16 code units. */
  const MAX_QUERY_LENGTH: nat := 1500

  /** One character of the class `[a-zA-Z0-9_\-]`. */
  predicate IsCategoryChar(c: char) {
    ('a' <= c <= 'z') || ('A' <= c <= 'Z') || ('0' <= c <= '9') || c == '_' || c == '-'
  }

  /** The regular expression `^[a-zA-Z0-9_\-]+$`. */
  predicate IsCategoryName(s: string) {
    |s| > 0 && forall i :: 0 <= i < |s| ==> IsCategoryChar(s[i])
  }

  /**
   * The guard chain of `validateBasicInput`. A field is `None` when it is missing
   * from the request body or is not a string; an empty string is falsy and fails too.
   */
  function ValidateBasicInput(category: Option<string>, userQuery: Option<string>): (ok: bool)
    ensures ok <==> && category.Some? && IsCategoryName(category.value)
                    && userQuery.Some? && Trim(userQuery.value) != []
                    && Utf16Length(userQuery.value) <= MAX_QUERY_LENGTH
  {
    if category.None? || category.value == "" then false
    else if !IsCategoryName(category.value) then false
    else if userQuery.None? || userQuery.value == "" then false
    else if |Trim(userQuery.value)| == 0 then false
    else if Utf16Length(userQuery.value) > MAX_QUERY_LENGTH then false
    else true
  }

  /** The request fields are accepted exactly when all three conditions hold. */
  lemma ValidateBasicInputIff(category: Option<string>, userQuery: Option<string>)
    ensures ValidateBasicInput(category, userQuery) <==>
      && category.Some? && IsCategoryName(category.value)
      && userQuery.Some? && (exists i :: 0 <= i < |userQuery.value| && !IsWhitespace(userQuery.value[i]))
      && Utf16Length(userQuery.value) <= MAX_QUERY_LENGTH
  {
    if userQuery.Some? {
      TrimEmptyIff(userQuery.value);
    }
  }

  /** A category with any character outside the identifier class (`/`, `.`, a space) is refused. */
  lemma RejectsPathCharacters(category: string, userQuery: Option<string>, i: nat)
    requires i < |category| && !IsCategoryChar(category[i])
    ensures !ValidateBasicInput(Some(category), userQuery)
  {
  }

  /** The traversal attempt `../etc` is refused whatever the query. */
  lemma RejectsTraversal(userQuery: Option<string>)
    ensures !ValidateBasicInput(Some("../etc"), userQuery)
  {
    RejectsPathCharacters("../etc", userQuery, 0);
  }

  /** The length limit is inclusive: 1500 code units pass, 1501 fail. */
  lemma QueryLengthBoundary(category: string, q: string)
    requires IsCategoryName(category)
    requires exists i :: 0 <= i < |q| && !IsWhitespace(q[i])
    ensures Utf16Length(q) == MAX_QUERY_LENGTH ==> ValidateBasicInput(Some(category), Some(q))
    ensures Utf16Length(q) == MAX_QUERY_LENGTH + 1 ==> !ValidateBasicInput(Some(category), Some(q))
  {
    ValidateBasicInputIff(Some(category), Some(q));
  }

  /** A query made only of whitespace is refused, however short. */
  lemma RejectsBlankQuery(category: Option<string>, q: string)
    requires AllWhitespace(q)
    ensures !ValidateBasicInput(category, Some(q))
  {
    TrimEmptyIff(q);
  }
}

=== FILE: weather.dfy ===
/**
 * `getWeatherEmoji`: a coarse bucketing of WMO weather interpretation codes into eight
 * kinds of sky, each drawn as one emoji.
 */
module Weather {

  /** The eight kinds of sky the badge distinguishes. */
  datatype Sky = Thunderstorm | RainShowers | Snow | Rain | Fog | Overcast | PartlyCloudy | ClearSky

  /** The codes each kind of sky covers: together the bands cover every integer. */
  predicate InBand(code: int, sky: Sky) {
    match sky
    case Thunderstorm => 95 <= code
    case RainShowers => 80 <= code < 95
    case Snow => 71 <= code < 80
    case Rain => 61 <= code < 71
    case Fog => 45 <= code < 61
    case Overcast => 3 <= code < 45
    case PartlyCloudy => 1 <= code < 3
    case ClearSky => code < 1
  }

  /** The emoji drawn for each kind of sky. */
  function Emoji(sky: Sky): string {
    match sky
    case Thunderstorm => "\U{1F329}\U{FE0F}"
    case RainShowers => "\U{1F327}\U{FE0F}"
    case Snow => "\U{1F328}\U{FE0F}"
    case Rain => "\U{2614}"
    case Fog => "\U{1F32B}\U{FE0F}"
    case Overcast => "\U{2601}\U{FE0F}"
    case PartlyCloudy => "\U{1F324}\U{FE0F}"
    case ClearSky => "\U{2600}\U{FE0F}"
  }

  /** The descending threshold chain: the first threshold the code reaches picks the emoji. */
  function GetWeatherEmoji(code: int): (e: string)
    ensures exists sky :: InBand(code, sky) && e == Emoji(sky)
  {
    if code >= 95 then Emoji(Thunderstorm)
    else if code >= 80 then Emoji(RainShowers)
    else if code >= 71 then Emoji(Snow)
    else if code >= 61 then Emoji(Rain)
    else if code >= 45 then Emoji(Fog)
    else if code >= 3 then Emoji(Overcast)
    else if code >= 1 then Emoji(PartlyCloudy)
    else Emoji(ClearSky)
  }

  /** Every integer code lies in exactly one band. */
  lemma BandsPartition(code: int)
    ensures exists sky :: InBand(code, sky)
    ensures forall s, t :: InBand(code, s) && InBand(code, t) ==> s == t
  {
    var e := GetWeatherEmoji(code);
  }

  /** No two kinds of sky share an emoji. */
  lemma EmojiDistinct(s: Sky, t: Sky)
    requires s != t
    ensures Emoji(s) != Emoji(t)
  {
    assert Emoji(s)[0] != Emoji(t)[0];
  }

  /** The emoji names the code's band, and only it. */
  lemma GetWeatherEmojiIff(code: int, sky: Sky)
    ensures GetWeatherEmoji(code) == Emoji(sky) <==> InBand(code, sky)
  {
    var s :| InBand(code, s) && GetWeatherEmoji(code) == Emoji(s);
    BandsPartition(code);
    if s != sky {
      EmojiDistinct(s, sky);
    }
  }
}
